=== FILE: README.md ===
# Static-runtime operator functors and the nested-tensor capability check

This project models two pieces of PyTorch in Dafny and proves properties of the model.

**The static runtime's generated operator functors.** For each operator, a registered factory takes a graph node and compares it against the operator's schemas in declaration order. It returns the closure of the first schema that matches, or `nullptr` after logging the node when none does. A closure executes on a *processed node*:

- It reads its inputs by position, each with the accessor its schema declares.
- If output 0 is still None, it stores the freshly allocated result of the functional kernel (`at::cpu::op`).
- Otherwise it takes the tensor already in output 0, resizes it to zero with `fastResizeToZero`, and lets the `_out` kernel write the result into that same tensor.

The representative operators are `neg`, `gcd`, `bitwise_and`, `maximum`, `minimum`, `eq`, `ne`, `lt` (Scalar and Tensor overloads), `round` and `round.decimals`, `isin` (three overloads) and `scatter` (four overloads). Every closure in the source has the same shape and captures nothing. So a closure is modelled once, as `StaticOps.RunFunctor` applied to a `Functor` value: the matched schema plus the kernel it calls.

**`NestedTensorImpl`.** A tensor's implementation is either ordinary or nested. A nested one holds a flat buffer and a nested size tensor, both fixed at construction.

- `is_nested_tensor_impl` tests the dispatch key set.
- `get_nested_tensor_impl` is a guarded downcast, and `get_buffer` and `get_nested_size_tensor` go through it.
- On a nested value, `dim`, `numel`, `is_contiguous`, `sizes` and `strides` fail with their own messages and never answer with a default.

## Layout

| file | module | contents |
|---|---|---|
| `wrappers.dfy` | `Wrappers` | `Option`, `Result`, `Outcome` |
| `tensor.dfy` | `Tensors` | the `Tensor` class: a storage array and a logical element count, `fastResizeToZero`, and the resize-then-write of an `_out` kernel |
| `kernels.dfy` | `Kernels` | the `at::cpu` kernels of the representative operators on one-dimensional integer tensors |
| `kernel_laws.dfy` | `KernelLaws` | what those kernels promise, against independent definitions |
| `schema.dfy` | `Schemas` | argument types, operator symbols, schemas, `Node::matches`, and first-match selection |
| `processed_node.dfy` | `Runtime` | value slots, the typed accessors (`toTensor`, `toScalar`, ...), and the `ProcessedNode` class |
| `generated_ops.dfy` | `StaticOps` | the registered overloads, the factory (`MakeOperator`) and the closure body (`RunFunctor`) |
| `dispatch_laws.dfy` | `DispatchLaws` | overload choice, unambiguous overloads, well-typed closures, and executions in a row |
| `nested_tensor.dfy` | `NestedTensors` | `NestedTensorImpl.h` |

## Modelling decisions

- **Tensors.** Tensors are one-dimensional and hold unbounded integers.
  - Comparison and `isin` results are 0/1 elements; dtypes are not modelled.
  - A tensor is bound by its contents. Its storage array is its capacity and is kept across executions: `FastResizeToZero` changes only the element count.
- **`_out` kernels.** An `_out` kernel resizes its output. It reallocates the storage only when the result does not fit, then writes every element (`ResizeAndWrite`).
- **Matching.** `Node::matches` is modelled structurally:
  - the same operator symbol and as many inputs as parameters;
  - each input type is accepted at its position: an int where a Scalar is declared, and None or the element type where an optional type is declared.
  
  The overload tag does not take part. Operator symbols are interned, so they are a datatype with one constructor per registered operator plus `OtherSymbol` for the rest.
- **Reading inputs.** A closure reads all its inputs before it looks at output 0, as the source does. A failed read is reported as a failure `Outcome` carrying the accessor's message.
- **Failures.** A failing functional kernel leaves output 0 None. The input reads (generated_ops.cpp:779) and the fetch of output 0 (784) come before `fastResizeToZero` (785), so a failing input read leaves output 0 as it was. An execution whose `_out` kernel fails does not keep the previous result: `fastResizeToZero` has already run, and the model's kernels, which check all their arguments before writing, leave the reused tensor empty.
- **Aliasing.** `ProcessedNode.Valid` assumes that the tensor in output 0 shares neither identity nor storage with any input tensor. This is the static runtime's no-alias guarantee for outputs, and it is what makes "inputs are read-only" provable.
- **Kernels.** The kernels follow the ATen CPU kernels' element semantics:
  - size-1 broadcasting and its size-mismatch error;
  - Euclid's gcd on magnitudes;
  - two's-complement bitwise and;
  - rounding half to even (`round` is `round.decimals` with 0 decimals);
  - `isin` with `invert`;
  - `scatter`'s check order, where the last write wins and reductions apply in index order.
  
  The ATen kernels are outside the code modelled here. Their error messages are abbreviated: ATen's messages embed the sizes, the dimension or the offending index, and the model's constants leave those out.
- **Nested tensors.** The nested-tensor part models the build with tensor-impl extensibility enabled, where the shape queries are overridden. Ordinary key sets exclude the `NestedTensor` key by type, since only the nested constructor adds it.

## Model

| member | source | states |
|---|---|---|
| Schemas.FirstMatch | torch/csrc/jit/runtime/static/generated_ops.cpp:1341-1373 | the result is the index of the first schema the node matches, with none before it; None exactly when no schema matches |
| Schemas.LaterSchemasNotConsulted | torch/csrc/jit/runtime/static/generated_ops.cpp:793-823 | once a schema matches, appending more overloads after it does not change the choice |
| Schemas.EarlierMismatchesSkipped | torch/csrc/jit/runtime/static/generated_ops.cpp:515-571 | when no earlier schema matches, the choice is the first match among the later ones, offset by the earlier count |
| Schemas.TensorAndScalarDisjoint | torch/csrc/jit/runtime/static/generated_ops.cpp:1342-1370 | only a Tensor is accepted as a Tensor, and no type is accepted both as a Tensor and as a Scalar |
| StaticOps.MakeOperator | torch/csrc/jit/runtime/static/generated_ops.cpp:776-791 | None (the `nullptr` after logging) exactly when the node matches no overload; otherwise the functor of the first overload it matches, in declaration order |
| StaticOps.Overloads | torch/csrc/jit/runtime/static/generated_ops.cpp:515-1747 | each factory's overloads, in the order its if-chain tries them: Scalar before Tensor for `eq`, `ne` and `lt` (1341-1373, 1579-1611, 1715-1747); `round` before `round.decimals` (793-823); Tensor_Tensor, Tensor_Scalar, Scalar_Tensor for `isin` (515-571); src, value, reduce, value_reduce for `scatter` (1246-1318); one overload for `neg`, `gcd`, `bitwise_and`, `maximum` and `minimum`; none for any other operator; every overload's schema names its own operator |
| StaticOps.ComputeRoutesArguments | torch/csrc/jit/runtime/static/generated_ops.cpp:515-1318 | how a closure passes its bound inputs to the kernel: only ill-typed arguments give the model's `BadArguments`; the `isin` closures pass `assume_unique` to the kernel (525, 543, 561), and the model's kernels ignore it; `scatter.value` and `scatter.value_reduce` are the `src` and `reduce` forms with the value written once per index (1265-1313); `round` is `round.decimals` with 0 decimals |
| StaticOps.Bind | torch/csrc/jit/runtime/static/generated_ops.cpp:1342-1355 | the inputs bind exactly when there are enough and every accessor succeeds; bound value `i` is what the accessor of parameter `i` reads from input `i` |
| Runtime.Read | torch/csrc/jit/runtime/static/generated_ops.cpp:1246-1318 | a read succeeds exactly when the slot is of a kind the declared type accepts (a Scalar also takes an int, an optional type also takes None); the value read fits the declared type and is the slot's own: the tensor's contents, the int, Scalar, bool, string or ScalarType it holds, or absent for None |
| Runtime.ProcessedNode.constructor | torch/csrc/jit/runtime/static/generated_ops.cpp:778-782 | a node starts with the given inputs and every output None, and satisfies the node invariant |
| StaticOps.RunFunctor | torch/csrc/jit/runtime/static/generated_ops.cpp:778-787 | succeeds exactly when the inputs bind, the kernel succeeds and output 0 is None or a tensor; output 0 then holds exactly the kernel's result; the first execution allocates a fresh tensor; a later one keeps the same tensor, and its storage when the result fits; only output 0 is written and the input tensors are unchanged; failures report the read's or the kernel's error; a failing `_out` kernel leaves the reused tensor empty |
| Tensors.Tensor.FromValues | torch/csrc/jit/runtime/static/generated_ops.cpp:782-784 | a fresh tensor holding exactly the kernel's result, in storage sized to fit |
| Tensors.Tensor.FastResizeToZero | torch/csrc/jit/runtime/static/generated_ops.cpp:785-786 | the tensor becomes empty and keeps its storage |
| Tensors.Tensor.ResizeAndWrite | torch/csrc/jit/runtime/static/generated_ops.cpp:786 | the tensor holds exactly the new values; its storage is kept when they fit and freshly allocated otherwise |
| DispatchLaws.ComparisonSelectsByType | torch/csrc/jit/runtime/static/generated_ops.cpp:1341-1373 | `eq`, `ne` and `lt` select the Scalar overload for a Scalar or int second input, the Tensor overload for a tensor, and nothing otherwise |
| DispatchLaws.RoundSelectsByArity | torch/csrc/jit/runtime/static/generated_ops.cpp:793-823 | `round` with one input selects `round`, with a tensor and an int selects `round.decimals`, and with more inputs selects nothing |
| DispatchLaws.IsinSelectsByType | torch/csrc/jit/runtime/static/generated_ops.cpp:515-571 | `isin` selects Tensor_Tensor, Tensor_Scalar or Scalar_Tensor by the types of its first two inputs, and nothing for two Scalars |
| DispatchLaws.ScatterSelectsByTypeAndArity | torch/csrc/jit/runtime/static/generated_ops.cpp:1246-1318 | `scatter` selects `src` or `value` by the type of input 3, and the `reduce` forms when a string follows |
| DispatchLaws.ForeignNodeMatchesNothing | torch/csrc/jit/runtime/static/generated_ops.cpp:1341-1373 | a node of another operator matches none of an operator's schemas |
| DispatchLaws.SchemasExclusive | torch/csrc/jit/runtime/static/generated_ops.cpp:1342-1370 | two schemas of different arity, or with Tensor against Scalar at one position, match no common node |
| DispatchLaws.OverloadsUnambiguous | torch/csrc/jit/runtime/static/generated_ops.cpp:1246-1318 | no node matches two overloads of the same representative operator |
| DispatchLaws.MatchedOverloadIsSelected | torch/csrc/jit/runtime/static/generated_ops.cpp:515-571 | the overload a node matches is the one the factory returns |
| DispatchLaws.OverloadsWellTyped | torch/csrc/jit/runtime/static/generated_ops.cpp:1246-1318 | every registered overload belongs to its operator, and its closure reads each input with the accessor its schema declares |
| DispatchLaws.BoundInputsFitKernel | torch/csrc/jit/runtime/static/generated_ops.cpp:456-474 | inputs that bind to a registered schema always fit its kernel, so a closure never fails with an argument mix-up |
| DispatchLaws.KernelErrorsAreOwn | torch/csrc/jit/runtime/static/generated_ops.cpp:1375-1395 | a kernel given arguments of its signature fails only with its own messages |
| DispatchLaws.RerunGivesSameOutput | torch/csrc/jit/runtime/static/generated_ops.cpp:778-787 | a stateless closure run twice on the same inputs succeeds both times or neither, and output 0 holds the same result; after a successful first run, the second run leaves in output 0 the very tensor and storage the first run left there (a fresh tensor when output 0 started None, the original one otherwise) |
| DispatchLaws.NegEvaluates | torch/csrc/jit/runtime/static/generated_ops.cpp:779 | the neg closure negates input 0 and fails only when it is not a tensor, or, in the model alone, missing (the runtime only debug-checks input indices, and a matched node supplies every input) |
| DispatchLaws.NegFirstRun | torch/csrc/jit/runtime/static/generated_ops.cpp:780-783 | neg on [1, -2, 3] with output 0 None allocates a fresh tensor holding [-1, 2, -3] |
| DispatchLaws.NegRerun | torch/csrc/jit/runtime/static/generated_ops.cpp:784-786 | rebound to [4, -5], output 0 keeps the same tensor and storage and holds exactly [-4, 5], with no residue of the first result |
| DispatchLaws.ScalarComparisonEvaluates | torch/csrc/jit/runtime/static/generated_ops.cpp:1344-1352 | the Scalar overload of a comparison reads a tensor and a Scalar or int and compares element by element |
| DispatchLaws.EqScalarRun | torch/csrc/jit/runtime/static/generated_ops.cpp:1344-1355 | `eq` of [2, 5, 2] with the int 2 yields [1, 0, 1] |
| Kernels.BroadcastSize | torch/csrc/jit/runtime/static/generated_ops.cpp:2044-2064 | two sizes broadcast exactly when they are equal or one is 1; the result is the other operand's size when the first is 1, and the first operand's size otherwise (so (1, 0) broadcasts to 0) |
| Kernels.ScatterPrefix | torch/csrc/jit/runtime/static/generated_ops.cpp:1246-1262 | applying updates keeps the length of `self` |
| KernelLaws.NegInvolution | torch/csrc/jit/runtime/static/generated_ops.cpp:776-791 | neg keeps the length and undoes itself |
| KernelLaws.SingletonBroadcastsAsExpansion | torch/csrc/jit/runtime/static/generated_ops.cpp:2044-2086 | a one-element operand, on either side, gives what its element repeated to the other operand's size gives |
| KernelLaws.SymmetricOpsCommute | torch/csrc/jit/runtime/static/generated_ops.cpp:2044-2086 | gcd, bitwise_and, maximum, minimum, eq and ne give the same result with the operands swapped, and fail exactly when the swapped call fails |
| KernelLaws.ScalarOverloadAgrees | torch/csrc/jit/runtime/static/generated_ops.cpp:1579-1611 | the Scalar overload computes what the Tensor overload computes on a one-element tensor |
| KernelLaws.NeNegatesEq | torch/csrc/jit/runtime/static/generated_ops.cpp:1579-1611 | `ne` succeeds exactly when `eq` does and is its element-wise negation |
| KernelLaws.ComparisonTrichotomy | torch/csrc/jit/runtime/static/generated_ops.cpp:1715-1747 | `lt` succeeds in both directions exactly when `eq` does, and at every position exactly one of `a < b`, `b < a` and `a == b` is flagged, each flag 0 or 1 |
| KernelLaws.MaxMinKeepOperands | torch/csrc/jit/runtime/static/generated_ops.cpp:2044-2086 | maximum succeeds exactly when minimum does, and at every position one takes the larger broadcast element and the other the smaller |
| KernelLaws.EuclidDivides | torch/csrc/jit/runtime/static/generated_ops.cpp:456-474 | Euclid's result divides both operands and is zero only for (0, 0) |
| KernelLaws.EuclidGreatest | torch/csrc/jit/runtime/static/generated_ops.cpp:456-474 | every common divisor divides Euclid's result |
| KernelLaws.GcdIsGreatestCommonDivisor | torch/csrc/jit/runtime/static/generated_ops.cpp:456-474 | gcd is symmetric, zero only for (0, 0), divides both magnitudes, and every common divisor divides it |
| KernelLaws.BitAndIdempotent | torch/csrc/jit/runtime/static/generated_ops.cpp:1375-1395 | x & x == x |
| KernelLaws.BitAndCommutes | torch/csrc/jit/runtime/static/generated_ops.cpp:1375-1395 | bitwise and is commutative |
| KernelLaws.BitAndBounded | torch/csrc/jit/runtime/static/generated_ops.cpp:1375-1395 | with a non-negative operand the result lies between 0 and that operand |
| KernelLaws.RoundToMultipleIsNearest | torch/csrc/jit/runtime/static/generated_ops.cpp:807-819 | the result is a multiple of the step, at most half a step away, and the even multiple on a tie |
| KernelLaws.RoundDecimalsRounds | torch/csrc/jit/runtime/static/generated_ops.cpp:793-823 | rounding keeps the length of every input, leaves integers unchanged for decimals >= 0, and otherwise rounds every element to a multiple of 10^-decimals at most half a step away |
| KernelLaws.IsinDependsOnlyOnTestSet | torch/csrc/jit/runtime/static/generated_ops.cpp:515-532 | two test tensors holding the same values, in any order and with any repetitions, give the same result |
| KernelLaws.IsinTensorScalarAgrees | torch/csrc/jit/runtime/static/generated_ops.cpp:533-550 | Tensor_Scalar is Tensor_Tensor with a one-element test set |
| KernelLaws.IsinScalarTensorAgrees | torch/csrc/jit/runtime/static/generated_ops.cpp:551-568 | Scalar_Tensor is Tensor_Tensor on a one-element tensor |
| KernelLaws.ScatterKeepsUntouched | torch/csrc/jit/runtime/static/generated_ops.cpp:1246-1318 | a position no update names keeps its value from `self` |
| KernelLaws.ScatterLastWriteWins | torch/csrc/jit/runtime/static/generated_ops.cpp:1246-1262 | without a reduction, a position holds the value of the last update naming it, as the sequential CPU kernel does |
| KernelLaws.ScatterFailsExactly | torch/csrc/jit/runtime/static/generated_ops.cpp:1246-1318 | scatter fails exactly on a bad dimension, an index longer than the source, an unknown reduction or an out-of-range index, and reports the message of the first check that fails, in that order |
| NestedTensors.KeySet | aten/src/ATen/native/nestedtensor/NestedTensorImpl.h:10-16 | the key set holds `NestedTensor` exactly for a nested implementation |
| NestedTensors.MakeNested | aten/src/ATen/native/nestedtensor/NestedTensorImpl.h:16 | the constructed value carries the `NestedTensor` key and the other keys it was given |
| NestedTensors.IsNestedTensorImpl | aten/src/ATen/native/nestedtensor/NestedTensorImpl.h:10-13 | true exactly for a nested implementation |
| NestedTensors.GetNestedTensorImpl | aten/src/ATen/native/nestedtensor/NestedTensorImpl.h:66-73 | succeeds exactly on a nested tensor and returns the same implementation; fails with "get_nested_tensor_impl requires a NestedTensor." otherwise |
| NestedTensors.GetBuffer | aten/src/ATen/native/nestedtensor/NestedTensorImpl.h:57-59 | the stored buffer on a nested tensor; the downcast's error otherwise |
| NestedTensors.GetNestedSizeTensor | aten/src/ATen/native/nestedtensor/NestedTensorImpl.h:37-39 | the stored size tensor on a nested tensor; the downcast's error otherwise |
| NestedTensors.Dim | aten/src/ATen/native/nestedtensor/NestedTensorImpl.h:18-23 | fails with the "dim is disabled" message exactly on a nested value |
| NestedTensors.Numel | aten/src/ATen/native/nestedtensor/NestedTensorImpl.h:24-29 | fails with the "numel is disabled" message exactly on a nested value |
| NestedTensors.IsContiguous | aten/src/ATen/native/nestedtensor/NestedTensorImpl.h:30-36 | fails with the "is_contiguous is disabled" message exactly on a nested value |
| NestedTensors.Sizes | aten/src/ATen/native/nestedtensor/NestedTensorImpl.h:40-47 | fails with the internal-error message exactly on a nested value, never returning an empty list |
| NestedTensors.Strides | aten/src/ATen/native/nestedtensor/NestedTensorImpl.h:48-55 | fails with the internal-error message exactly on a nested value, never returning an empty list |
| NestedTensors.AccessorsReturnConstructionArguments | aten/src/ATen/native/nestedtensor/NestedTensorImpl.h:75-81 | the free accessors return exactly the buffer and size tensor the value was constructed with |
| NestedTensors.NestedValuesAreConstructed | aten/src/ATen/native/nestedtensor/NestedTensorImpl.h:61-63 | a nested value is determined by its buffer, its size tensor and its other keys |
| NestedTensors.CapabilitiesPartition | aten/src/ATen/native/nestedtensor/NestedTensorImpl.h:18-81 | on every tensor, either the nested accessors succeed and every shape query fails, or the reverse |

## Left out

- The mobile model tracer's kernel-dtype recording (`KernelDTypeTracer.h`) is outside the code modelled here.
- `wrap_buffer` is only declared in `NestedTensorImpl.h`; it has no body to model.
- The `NestedTensorImpl` constructor's body is not in the header, so which keys besides `NestedTensor` it sets is a parameter of `MakeNested`.
- The build with tensor-impl extensibility disabled, where the shape queries are not overridden, is not modelled.
- Schema-string parsing and the internals of `Node::matches` are left out. Schemas are parsed records and matching is structural. Keyword-only markers and default values are not kept, because a node supplies every argument.
- `LogAndDumpSchema` and the `REGISTER_OPERATOR_FUNCTOR` registration macro are left out: a factory's `nullptr` result is `None`. Operators outside the representative set have no overloads here.
- The internals of `fastResizeToZero` are left out. Only its effect is kept: size zero, same storage.
- The other operators of `generated_ops.cpp` (`sgn`, `addmv`, `nextafter`, `scatter_add` and the rest) are not modelled. They repeat the same closure shape with other kernels.
- Floating-point kernels and dtypes are left out. Elements are unbounded integers; rounding is defined on integer-valued elements with the float formula.
- Multi-dimensional shapes and general broadcasting are left out; tensors are one-dimensional.
- The 64-bit width of integer elements is not modelled.
- Kernels.Scatter: scatter along a dimension other than 0 or -1 and multi-dimensional index tensors are not modelled.
- Runtime.Read: IValue tags beyond the ones the representative closures read are not modelled, and `toScalar` of a bool, which the accessor converts, fails in the model. A ScalarType is a slot kind of its own here, while an IValue stores it as an int, so reading an int slot as a ScalarType, or a ScalarType slot as an int, fails in the model but succeeds in the runtime; no representative closure reads a ScalarType.
- StaticOps.RunFunctor: the model's kernels fail before writing their output, so a reused tensor that a failing `_out` kernel leaves partly written (ATen's `scatter_out` resizes and copies `self` into `out` and then checks each index as it writes) is not modelled; in the model such a tensor is left empty.
- KernelLaws.IsinDependsOnlyOnTestSet: the model ignores `assume_unique` and computes true membership. This matches ATen only when `assume_unique` is false or `elements` holds no repeated value: on its sorting path with `assume_unique` set, ATen can flag a repeated element that is absent from the test elements.
- KernelLaws.ScatterLastWriteWins: scatter with repeated indices is documented as nondeterministic on other devices; the model follows the sequential CPU loop, where the last update wins.
- StaticOps.RunFunctor: memory planning, out-variant registration and the static runtime's outer loop are not modelled. Inputs are rebound by assigning `ProcessedNode.inputs`.

=== FILE: dispatch_laws.dfy ===
/** What the factories and closures of the representative operators promise
    as a whole: which overload a node gets, that the registered overloads
    never compete, that every closure reads its inputs with the types its
    schema declares, and what two executions in a row leave behind. */
module DispatchLaws {
  import opened Wrappers
  import opened Tensors
  import opened Schemas
  import opened Runtime
  import opened StaticOps
  import K = Kernels

  // ---------------------------------------------------------------------------
  // Overload selection

  /** `Matches` spelled out position by position for the arities that occur. */
  lemma Matches2(n: Node, s: Schema)
    requires |n.inputs| == 2 == |s.params|
    ensures Matches(n, s) <==>
      n.kind == s.name && Subtype(n.inputs[0], s.params[0].ty) && Subtype(n.inputs[1], s.params[1].ty)
  {
  }

  lemma Matches4(n: Node, s: Schema)
    requires |n.inputs| == 4 == |s.params|
    ensures Matches(n, s) <==>
      && n.kind == s.name
      && Subtype(n.inputs[0], s.params[0].ty) && Subtype(n.inputs[1], s.params[1].ty)
      && Subtype(n.inputs[2], s.params[2].ty) && Subtype(n.inputs[3], s.params[3].ty)
  {
  }

  lemma Matches5(n: Node, s: Schema)
    requires |n.inputs| == 5 == |s.params|
    ensures Matches(n, s) <==>
      && n.kind == s.name
      && Subtype(n.inputs[0], s.params[0].ty) && Subtype(n.inputs[1], s.params[1].ty)
      && Subtype(n.inputs[2], s.params[2].ty) && Subtype(n.inputs[3], s.params[3].ty)
      && Subtype(n.inputs[4], s.params[4].ty)
  {
  }

  /** `eq`, `ne` and `lt` pick their overload by the type of the second
      input: a Scalar (or an int) selects the Scalar overload, a Tensor the
      Tensor overload, anything else nothing. */
  lemma {:induction false} ComparisonSelectsByType(op: Symbol, cmp: K.BinOp, other: Ty)
    requires (op, cmp) in {(Eq, K.EqOp), (Ne, K.NeOp), (Lt, K.LtOp)}
    ensures Subtype(other, ScalarTy) ==>
      MakeOperator(Node(op, [TensorTy, other])) == Some(Functor(CompareScalarSchema(op), BinaryScalarK(cmp)))
    ensures other == TensorTy ==>
      MakeOperator(Node(op, [TensorTy, other])) == Some(Functor(CompareTensorSchema(op), BinaryK(cmp)))
    ensures !Subtype(other, ScalarTy) && other != TensorTy ==>
      MakeOperator(Node(op, [TensorTy, other])).None?
  {
    var n := Node(op, [TensorTy, other]);
    var fs := Overloads(op);
    assert fs == ComparisonOverloads(op, cmp);
    var ss := SchemasOf(fs);
    assert ss[1..][1..] == [];
    TensorAndScalarDisjoint(other);
    Matches2(n, ss[0]);
    Matches2(n, ss[1]);
    assert Matches(n, ss[0]) <==> Subtype(other, ScalarTy);
    assert Matches(n, ss[1]) <==> other == TensorTy;
  }

  /** `round` and `round.decimals` are told apart by arity alone. */
  lemma RoundSelectsByArity(rest: seq<Ty>)
    ensures MakeOperator(Node(Round, [TensorTy])) == Some(Functor(RoundSchema, RoundK))
    ensures MakeOperator(Node(Round, [TensorTy, IntTy])) == Some(Functor(RoundDecimalsSchema, RoundDecimalsK))
    ensures |rest| >= 2 ==> MakeOperator(Node(Round, [TensorTy] + rest)).None?
  {
  }

  /** `isin` tries Tensor_Tensor, then Tensor_Scalar, then Scalar_Tensor:
      the tensor positions among the first two inputs decide. */
  lemma {:induction false} IsinSelectsByType(t0: Ty, t1: Ty)
    ensures MakeOperator(Node(Isin, [t0, t1, BoolTy, BoolTy])) ==
      if t0 == TensorTy && t1 == TensorTy then Some(Functor(IsinTensorTensorSchema, IsinTensorTensorK))
      else if t0 == TensorTy && Subtype(t1, ScalarTy) then Some(Functor(IsinTensorScalarSchema, IsinTensorScalarK))
      else if Subtype(t0, ScalarTy) && t1 == TensorTy then Some(Functor(IsinScalarTensorSchema, IsinScalarTensorK))
      else None
  {
    var n := Node(Isin, [t0, t1, BoolTy, BoolTy]);
    var fs := Overloads(Isin);
    TensorAndScalarDisjoint(t0);
    TensorAndScalarDisjoint(t1);
    Matches4(n, fs[0].schema);
    Matches4(n, fs[1].schema);
    Matches4(n, fs[2].schema);
    if t0 == TensorTy && t1 == TensorTy {
      MatchedOverloadIsSelected(n, 0);
    } else if t0 == TensorTy && Subtype(t1, ScalarTy) {
      MatchedOverloadIsSelected(n, 1);
    } else if Subtype(t0, ScalarTy) && t1 == TensorTy {
      MatchedOverloadIsSelected(n, 2);
    }
  }

  /** `scatter` picks src or value by the type of input 3, and the reduce
      forms by the extra string argument. */
  lemma {:induction false} ScatterSelectsByTypeAndArity(t3: Ty)
    ensures MakeOperator(Node(Scatter, [TensorTy, IntTy, TensorTy, t3])) ==
      if t3 == TensorTy then Some(Functor(ScatterSrcSchema, ScatterSrcK))
      else if Subtype(t3, ScalarTy) then Some(Functor(ScatterValueSchema, ScatterValueK))
      else None
    ensures MakeOperator(Node(Scatter, [TensorTy, IntTy, TensorTy, t3, StrTy])) ==
      if t3 == TensorTy then Some(Functor(ScatterReduceSchema, ScatterReduceK))
      else if Subtype(t3, ScalarTy) then Some(Functor(ScatterValueReduceSchema, ScatterValueReduceK))
      else None
  {
    var fs := Overloads(Scatter);
    TensorAndScalarDisjoint(t3);
    var n4 := Node(Scatter, [TensorTy, IntTy, TensorTy, t3]);
    var n5 := Node(Scatter, [TensorTy, IntTy, TensorTy, t3, StrTy]);
    Matches4(n4, fs[0].schema);
    Matches4(n4, fs[1].schema);
    Matches5(n5, fs[2].schema);
    Matches5(n5, fs[3].schema);
    if t3 == TensorTy {
      MatchedOverloadIsSelected(n4, 0);
      MatchedOverloadIsSelected(n5, 2);
    } else if Subtype(t3, ScalarTy) {
      MatchedOverloadIsSelected(n4, 1);
      MatchedOverloadIsSelected(n5, 3);
    }
  }

  /** A node of another operator matches none of an operator's schemas. */
  lemma ForeignNodeMatchesNothing(op: Symbol, n: Node, j: nat)
    requires j < |Overloads(op)| && n.kind != op
    ensures !Matches(n, Overloads(op)[j].schema)
  {
  }

  // ---------------------------------------------------------------------------
  // The registered overloads never compete

  /** Two schemas that differ in arity, or where one declares a Tensor and
      the other a Scalar at the same position, match no common node. */
  lemma SchemasExclusive(n: Node, s1: Schema, s2: Schema, k: nat)
    requires || |s1.params| != |s2.params|
             || (k < |s1.params| && k < |s2.params| &&
                 ((s1.params[k].ty == TensorTy && s2.params[k].ty == ScalarTy) ||
                  (s1.params[k].ty == ScalarTy && s2.params[k].ty == TensorTy)))
    ensures !(Matches(n, s1) && Matches(n, s2))
  {
  }

  /** Every node matches at most one overload of each representative
      operator, so first-match never has to break a tie among them and the
      choice does not depend on declaration order. */
  lemma {:induction false} OverloadsUnambiguous(op: Symbol, i: nat, j: nat, n: Node)
    requires i < j < |Overloads(op)|
    ensures !(Matches(n, Overloads(op)[i].schema) && Matches(n, Overloads(op)[j].schema))
  {
    var s1, s2 := Overloads(op)[i].schema, Overloads(op)[j].schema;
    if op == Round {
      SchemasExclusive(n, s1, s2, 0);
    } else if op == Isin {
      SchemasExclusive(n, s1, s2, if i == 0 && j == 1 then 1 else 0);
    } else if op == Scatter {
      SchemasExclusive(n, s1, s2, 3);
    } else {
      assert op in {Eq, Ne, Lt};
      SchemasExclusive(n, s1, s2, 1);
    }
  }

  /** Hence the overload a node matches is the one it gets, wherever it is
      declared. */
  lemma MatchedOverloadIsSelected(n: Node, i: nat)
    requires i < |Overloads(n.kind)| && Matches(n, Overloads(n.kind)[i].schema)
    ensures MakeOperator(n) == Some(Overloads(n.kind)[i])
  {
    var fs := Overloads(n.kind);
    var r := MakeOperator(n);
    var j: nat :| j < |fs| && FirstMatching(SchemasOf(fs), n, j) && r.value == fs[j];
    if j < i {
      OverloadsUnambiguous(n.kind, j, i, n);
    } else if i < j {
      OverloadsUnambiguous(n.kind, i, j, n);
    }
  }

  // ---------------------------------------------------------------------------
  // Every closure reads what its schema declares

  /** Each registered overload belongs to its operator, and its closure reads
      exactly the argument types of its schema, position by position. */
  lemma OverloadsWellTyped(op: Symbol, i: nat)
    requires i < |Overloads(op)|
    ensures Overloads(op)[i].schema.name == op
    ensures var f := Overloads(op)[i];
      |f.schema.params| == |Signature(f.kernel)| &&
      forall k :: 0 <= k < |Signature(f.kernel)| ==> f.schema.params[k].ty == Signature(f.kernel)[k]
  {
  }

  /** So inputs that bind to a registered overload's schema always fit its
      kernel: its errors are the kernel's own, never an argument mix-up. */
  lemma {:induction false} BoundInputsFitKernel(op: Symbol, i: nat, slots: seq<Slot>)
    requires i < |Overloads(op)|
    requires SlotsValid(slots)
    ensures var f := Overloads(op)[i];
      Bind(f.schema.params, slots).Success? ==>
        Typed(Bind(f.schema.params, slots).value, Signature(f.kernel)) &&
        Eval(f, slots) != Failure(BadArguments)
  {
    var f := Overloads(op)[i];
    OverloadsWellTyped(op, i);
    var b := Bind(f.schema.params, slots);
    if b.Success? {
      var tys := Signature(f.kernel);
      forall k | 0 <= k < |b.value|
        ensures Fits(b.value[k], tys[k])
      {
        assert tys[k] == f.schema.params[k].ty;
      }
      assert Typed(b.value, tys);
      KernelErrorsAreOwn(f.kernel, b.value);
    }
  }

  /** A kernel given arguments of its signature fails only with one of its
      own messages. */
  lemma KernelErrorsAreOwn(k: Kernel, args: seq<Arg>)
    requires Typed(args, Signature(k))
    ensures Compute(k, args) != Failure(BadArguments)
  {
  }

  // ---------------------------------------------------------------------------
  // Executions in a row

  /** A closure captures nothing: running it a second time on the same
      inputs succeeds exactly when the first run did, and leaves output 0
      holding the same result. The second run reallocates nothing: output 0
      keeps the very tensor the first run left there (`kept`), and that
      tensor keeps the storage it had after the first run (`buffer`). */
  method RerunGivesSameOutput(f: Functor, p: ProcessedNode)
      returns (first: Outcome, second: Outcome, kept: Option<Tensor>, ghost buffer: Option<array<int>>)
    requires p.Valid()
    modifies p.outputs, p.OutputFrame()
    ensures p.Valid()
    ensures first.Pass? <==> second.Pass?
    ensures second.Pass? ==>
      && old(Eval(f, p.inputs)).Success?
      && p.outputs[0].TensorSlot?
      && p.outputs[0].t.Contents() == old(Eval(f, p.inputs)).value
    ensures first.Pass? <==> kept.Some? && buffer.Some?
    ensures first.Pass? ==>
      && p.outputs[0] == TensorSlot(kept.value)
      && kept.value.storage == buffer.value
      && (old(p.outputs[0]).TensorSlot? ==> kept.value == old(p.outputs[0].t))
      && (old(p.outputs[0]).NoneSlot? ==> fresh(kept.value) && fresh(buffer.value))
  {
    first := RunFunctor(f, p);
    kept, buffer := None, None;
    if first.Pass? {
      kept := Some(p.outputs[0].t);
      buffer := Some(p.outputs[0].t.storage);
    }
    second := RunFunctor(f, p);
  }

  /** The neg closure reads input 0 as a tensor and negates it; it fails
      only when input 0 is not a tensor, or (in the model alone, since a
      matched node always supplies it) when input 0 is missing. */
  lemma NegEvaluates(slots: seq<Slot>)
    requires SlotsValid(slots)
    ensures Eval(Functor(NegSchema, NegK), slots) ==
      if |slots| == 0 then Failure("Input index out of range")
      else if slots[0].TensorSlot? then Success(K.Neg(slots[0].t.Contents()))
      else Failure("Expected Tensor")
  {
  }

  /** neg on [1, -2, 3] allocates [-1, 2, -3]; rebound to [4, -5], the same
      output tensor ends up holding [-4, 5] and nothing of the first result,
      in the storage it already had. */
  method NegReuseScenario()
  {
    MatchedOverloadIsSelected(Node(Neg, [TensorTy]), 0);
    assert MakeOperator(Node(Neg, [TensorTy])) == Some(Functor(NegSchema, NegK));
    var x := new Tensor.FromValues([1, -2, 3]);
    var p := new ProcessedNode([TensorSlot(x)], 1);
    var out := NegFirstRun(p, x);
    ghost var buffer := out.storage;
    var y := new Tensor.FromValues([4, -5]);
    NegRerun(p, out, y);
    assert out.Contents() == [-4, 5] && out.storage == buffer;
  }

  /** The first execution of the scenario: output 0 is None and the input is
      [1, -2, 3]. */
  method NegFirstRun(p: ProcessedNode, x: Tensor) returns (out: Tensor)
    requires p.Valid() && p.outputs[0] == NoneSlot
    requires p.inputs == [TensorSlot(x)] && x.Valid() && x.Contents() == [1, -2, 3]
    modifies p.outputs
    ensures p.Valid() && p.outputs[0] == TensorSlot(out) && fresh(out) && fresh(out.storage)
    ensures out.Contents() == [-1, 2, -3] && out.storage.Length >= 3
  {
    NegEvaluates(p.inputs);
    assert K.Neg([1, -2, 3]) == [-1, 2, -3];
    var o1 := RunFunctor(Functor(NegSchema, NegK), p);
    out := p.outputs[0].t;
  }

  /** The second execution of the scenario: output 0 already holds a tensor
      with room for three elements, and the input is rebound to [4, -5]. */
  method NegRerun(p: ProcessedNode, out: Tensor, y: Tensor)
    requires p.Valid() && p.outputs[0] == TensorSlot(out) && out.storage.Length >= 3
    requires y.Valid() && y.Contents() == [4, -5] && y != out && y.storage != out.storage
    modifies p, p.outputs, out, out.storage
    ensures p.outputs[0] == TensorSlot(out) && out.storage == old(out.storage)
    ensures out.Valid() && out.Contents() == [-4, 5]
  {
    p.inputs := [TensorSlot(y)];
    NegEvaluates(p.inputs);
    assert K.Neg([4, -5]) == [-4, 5];
    var o2 := RunFunctor(Functor(NegSchema, NegK), p);
  }

  /** The Scalar overload of a comparison reads input 0 as a tensor and
      input 1 as a Scalar (an int is accepted too), and compares element by
      element. */
  lemma ScalarComparisonEvaluates(op: Symbol, cmp: K.BinOp, slots: seq<Slot>)
    requires SlotsValid(slots) && |slots| >= 2 && slots[0].TensorSlot?
    requires slots[1].ScalarSlot? || slots[1].IntSlot?
    ensures Eval(Functor(CompareScalarSchema(op), BinaryScalarK(cmp)), slots) ==
      Success(K.BinaryScalar(cmp, slots[0].t.Contents(), if slots[1].ScalarSlot? then slots[1].scalar else slots[1].i))
  {
  }

  /** eq on a tensor and an int selects the Scalar overload and compares
      element by element: [2, 5, 2] == 2 gives [1, 0, 1]. */
  method EqScalarScenario()
  {
    ComparisonSelectsByType(Eq, K.EqOp, IntTy);
    assert MakeOperator(Node(Eq, [TensorTy, IntTy])) == Some(Functor(CompareScalarSchema(Eq), BinaryScalarK(K.EqOp)));
    var x := new Tensor.FromValues([2, 5, 2]);
    var p := new ProcessedNode([TensorSlot(x), IntSlot(2)], 1);
    var out := EqScalarRun(p, x);
    assert out.Contents() == [1, 0, 1];
  }

  /** The execution of the scenario: output 0 is None, the inputs are the
      tensor [2, 5, 2] and the int 2. */
  method EqScalarRun(p: ProcessedNode, x: Tensor) returns (out: Tensor)
    requires p.Valid() && p.outputs[0] == NoneSlot
    requires p.inputs == [TensorSlot(x), IntSlot(2)] && x.Valid() && x.Contents() == [2, 5, 2]
    modifies p.outputs
    ensures p.outputs[0] == TensorSlot(out) && out.Valid() && out.Contents() == [1, 0, 1]
  {
    ScalarComparisonEvaluates(Eq, K.EqOp, p.inputs);
    assert K.BinaryScalar(K.EqOp, [2, 5, 2], 2) == [1, 0, 1];
    var o := RunFunctor(Functor(CompareScalarSchema(Eq), BinaryScalarK(K.EqOp)), p);
    out := p.outputs[0].t;
  }
}

=== FILE: generated_ops.dfy ===
/** The static runtime's operator functors: the factories that pick a
    closure by first-match over an operator's schemas, and the closure body that allocates its output on the first execution and
    resizes and refills the same tensor on every later one.

    Every closure in the source has the same shape and captures nothing, so a
    closure is modelled once, as `RunFunctor` applied to a `Functor` value:
    the matched schema (which fixes the position and accessor of every input)
    and the kernel it calls. */
module StaticOps {
  import opened Wrappers
  import opened Tensors
  import opened Runtime
  import opened Schemas
  import K = Kernels

  /** The closure's prologue: input `i` is read with the accessor of parameter
      `i`, in order, and the first failing read is the error. */
  function Bind(params: seq<Param>, slots: seq<Slot>): (r: Result<seq<Arg>>)
    requires SlotsValid(slots)
    reads Footprint(slots)
    ensures r.Success? <==>
      |params| <= |slots| && forall i :: 0 <= i < |params| ==> Read(params[i].ty, slots[i]).Success?
    ensures r.Success? ==>
      |r.value| == |params| &&
      forall i :: 0 <= i < |params| ==> r.value[i] == Read(params[i].ty, slots[i]).value
  {
    if params == [] then Success([])
    // A node that matched its schema supplies every input, so the runtime
    // only debug-checks the index; this failure exists in the model alone.
    else if slots == [] then Failure("Input index out of range")
    else match Read(params[0].ty, slots[0])
      case Failure(e) => Failure(e)
      case Success(a) =>
        match Bind(params[1..], slots[1..])
        case Failure(e) => Failure(e)
        case Success(rest) => Success([a] + rest)
  }

  // ---------------------------------------------------------------------------
  // Kernels and functors

  /** The `at::cpu` kernel a closure calls, in its functional form and its
      `_out` form. */
  datatype Kernel =
    | NegK
    | BinaryK(op: K.BinOp)
    | BinaryScalarK(op: K.BinOp)
    | RoundK
    | RoundDecimalsK
    | IsinTensorTensorK
    | IsinTensorScalarK
    | IsinScalarTensorK
    | ScatterSrcK
    | ScatterValueK
    | ScatterReduceK
    | ScatterValueReduceK

  /** The types of the arguments a kernel reads, in order. */
  function Signature(k: Kernel): seq<Ty>
  {
    match k
    case NegK => [TensorTy]
    case BinaryK(_) => [TensorTy, TensorTy]
    case BinaryScalarK(_) => [TensorTy, ScalarTy]
    case RoundK => [TensorTy]
    case RoundDecimalsK => [TensorTy, IntTy]
    case IsinTensorTensorK => [TensorTy, TensorTy, BoolTy, BoolTy]
    case IsinTensorScalarK => [TensorTy, ScalarTy, BoolTy, BoolTy]
    case IsinScalarTensorK => [ScalarTy, TensorTy, BoolTy, BoolTy]
    case ScatterSrcK => [TensorTy, IntTy, TensorTy, TensorTy]
    case ScatterValueK => [TensorTy, IntTy, TensorTy, ScalarTy]
    case ScatterReduceK => [TensorTy, IntTy, TensorTy, TensorTy, StrTy]
    case ScatterValueReduceK => [TensorTy, IntTy, TensorTy, ScalarTy, StrTy]
  }

  predicate Typed(args: seq<Arg>, tys: seq<Ty>)
  {
    |args| == |tys| && forall i :: 0 <= i < |args| ==> Fits(args[i], tys[i])
  }

  const BadArguments := "arguments do not fit the kernel"

  /** The kernel's result on bound arguments. */
  function Compute(k: Kernel, args: seq<Arg>): Result<seq<int>>
  {
    if !Typed(args, Signature(k)) then Failure(BadArguments)
    else match k
      case NegK => Success(K.Neg(args[0].data))
      case BinaryK(op) => K.Binary(op, args[0].data, args[1].data)
      case BinaryScalarK(op) => Success(K.BinaryScalar(op, args[0].data, args[1].scalar))
      case RoundK => Success(K.RoundDecimals(args[0].data, 0))
      case RoundDecimalsK => Success(K.RoundDecimals(args[0].data, args[1].i))
      case IsinTensorTensorK => Success(K.IsinTensorTensor(args[0].data, args[1].data, args[3].b))
      case IsinTensorScalarK => Success(K.IsinTensorScalar(args[0].data, args[1].scalar, args[3].b))
      case IsinScalarTensorK => Success(K.IsinScalarTensor(args[0].scalar, args[1].data, args[3].b))
      case ScatterSrcK =>
        K.Scatter(args[0].data, args[1].i, args[2].data, args[3].data, None)
      case ScatterValueK =>
        K.Scatter(args[0].data, args[1].i, args[2].data, K.Fill(args[3].scalar, |args[2].data|), None)
      case ScatterReduceK =>
        K.Scatter(args[0].data, args[1].i, args[2].data, args[3].data, Some(args[4].str))
      case ScatterValueReduceK =>
        K.Scatter(args[0].data, args[1].i, args[2].data, K.Fill(args[3].scalar, |args[2].data|), Some(args[4].str))
  }

  /** How the closures hand their bound inputs to the kernels. Only
      ill-typed arguments give `BadArguments`; the isin closures pass
      `assume_unique` on, and the model's isin kernels ignore it; `scatter.value` and
      `scatter.value_reduce` are their `src` forms with the value written
      once per index; `round` is `round.decimals` with 0 decimals. */
  lemma ComputeRoutesArguments(k: Kernel, args: seq<Arg>, flag: bool)
    ensures Compute(k, args) == Failure(BadArguments) <==> !Typed(args, Signature(k))
    ensures (k.IsinTensorTensorK? || k.IsinTensorScalarK? || k.IsinScalarTensorK?) && Typed(args, Signature(k)) ==>
      Compute(k, args[2 := BoolArg(flag)]) == Compute(k, args)
    ensures k.ScatterValueK? && Typed(args, Signature(k)) ==>
      Compute(k, args) == Compute(ScatterSrcK, args[3 := TensorArg(K.Fill(args[3].scalar, |args[2].data|))])
    ensures k.ScatterValueReduceK? && Typed(args, Signature(k)) ==>
      Compute(k, args) == Compute(ScatterReduceK, args[3 := TensorArg(K.Fill(args[3].scalar, |args[2].data|))])
    ensures k.RoundK? && Typed(args, Signature(k)) ==>
      Compute(k, args) == Compute(RoundDecimalsK, args + [IntArg(0)])
  {
  }

  /** An operator functor (`SROperator`): a closure with an empty capture
      list, so all it carries is the schema it was chosen for and the kernel
      it calls. */
  datatype Functor = Functor(schema: Schema, kernel: Kernel)

  /** What the closure computes for the values in `slots`: the bound
      arguments, then the kernel's result. */
  function Eval(f: Functor, slots: seq<Slot>): Result<seq<int>>
    requires SlotsValid(slots)
    reads Footprint(slots)
  {
    match Bind(f.schema.params, slots)
    case Failure(e) => Failure(e)
    case Success(args) => Compute(f.kernel, args)
  }

  // ---------------------------------------------------------------------------
  // The registered overloads of the representative operators

  function T(name: string): Param { Param(name, TensorTy) }

  const NegSchema := Schema(Neg, "", [T("self")])
  const GcdSchema := Schema(Gcd, "", [T("self"), T("other")])
  const BitwiseAndSchema := Schema(BitwiseAnd, "Tensor", [T("self"), T("other")])
  const MaximumSchema := Schema(Maximum, "", [T("self"), T("other")])
  const MinimumSchema := Schema(Minimum, "", [T("self"), T("other")])
  const RoundSchema := Schema(Round, "", [T("self")])
  const RoundDecimalsSchema := Schema(Round, "decimals", [T("self"), Param("decimals", IntTy)])

  function CompareScalarSchema(name: Symbol): Schema
  {
    Schema(name, "Scalar", [T("self"), Param("other", ScalarTy)])
  }

  function CompareTensorSchema(name: Symbol): Schema
  {
    Schema(name, "Tensor", [T("self"), T("other")])
  }

  const IsinFlags := [Param("assume_unique", BoolTy), Param("invert", BoolTy)]
  const IsinTensorTensorSchema := Schema(Isin, "Tensor_Tensor", [T("elements"), T("test_elements")] + IsinFlags)
  const IsinTensorScalarSchema := Schema(Isin, "Tensor_Scalar", [T("elements"), Param("test_element", ScalarTy)] + IsinFlags)
  const IsinScalarTensorSchema := Schema(Isin, "Scalar_Tensor", [Param("element", ScalarTy), T("test_elements")] + IsinFlags)

  const ScatterHead := [T("self"), Param("dim", IntTy), T("index")]
  const ScatterSrcSchema := Schema(Scatter, "src", ScatterHead + [T("src")])
  const ScatterValueSchema := Schema(Scatter, "value", ScatterHead + [Param("value", ScalarTy)])
  const ScatterReduceSchema := Schema(Scatter, "reduce", ScatterHead + [T("src"), Param("reduce", StrTy)])
  const ScatterValueReduceSchema := Schema(Scatter, "value_reduce", ScatterHead + [Param("value", ScalarTy), Param("reduce", StrTy)])

  /** The overloads a registered factory tries, in declaration order. An
      operator without a factory here has none. */
  function Overloads(op: Symbol): (r: seq<Functor>)
    ensures forall i :: 0 <= i < |r| ==> r[i].schema.name == op
    ensures op in {Neg, Gcd, BitwiseAnd, Maximum, Minimum} ==> |r| == 1
    ensures op in {Eq, Ne, Lt} ==> Tags(r) == ["Scalar", "Tensor"]
    ensures op == Round ==> Tags(r) == ["", "decimals"]
    ensures op == Isin ==> Tags(r) == ["Tensor_Tensor", "Tensor_Scalar", "Scalar_Tensor"]
    ensures op == Scatter ==> Tags(r) == ["src", "value", "reduce", "value_reduce"]
    ensures op.OtherSymbol? ==> r == []
  {
    match op
    case Neg => [Functor(NegSchema, NegK)]
    case Gcd => [Functor(GcdSchema, BinaryK(K.GcdOp))]
    case BitwiseAnd => [Functor(BitwiseAndSchema, BinaryK(K.BitAndOp))]
    case Maximum => [Functor(MaximumSchema, BinaryK(K.MaxOp))]
    case Minimum => [Functor(MinimumSchema, BinaryK(K.MinOp))]
    case Eq => ComparisonOverloads(op, K.EqOp)
    case Ne => ComparisonOverloads(op, K.NeOp)
    case Lt => ComparisonOverloads(op, K.LtOp)
    case Round => [Functor(RoundSchema, RoundK), Functor(RoundDecimalsSchema, RoundDecimalsK)]
    case Isin =>
      [ Functor(IsinTensorTensorSchema, IsinTensorTensorK),
        Functor(IsinTensorScalarSchema, IsinTensorScalarK),
        Functor(IsinScalarTensorSchema, IsinScalarTensorK) ]
    case Scatter =>
      [ Functor(ScatterSrcSchema, ScatterSrcK),
        Functor(ScatterValueSchema, ScatterValueK),
        Functor(ScatterReduceSchema, ScatterReduceK),
        Functor(ScatterValueReduceSchema, ScatterValueReduceK) ]
    case OtherSymbol(_) => []
  }

  /** `eq`, `ne` and `lt` each declare their Scalar overload before their
      Tensor overload. */
  function ComparisonOverloads(op: Symbol, cmp: K.BinOp): seq<Functor>
  {
    [ Functor(CompareScalarSchema(op), BinaryScalarK(cmp)),
      Functor(CompareTensorSchema(op), BinaryK(cmp)) ]
  }

  /** The overload tags of some functors, in order. */
  function Tags(fs: seq<Functor>): seq<string>
  {
    seq(|fs|, i requires 0 <= i < |fs| => fs[i].schema.overload)
  }

  function SchemasOf(fs: seq<Functor>): (r: seq<Schema>)
    ensures |r| == |fs| && forall i :: 0 <= i < |fs| ==> r[i] == fs[i].schema
  {
    seq(|fs|, i requires 0 <= i < |fs| => fs[i].schema)
  }

  /** The factory registered for the node's operator: the functor of the
      first overload the node matches, or none (`nullptr`, after the schema
      is logged) when it matches none of them. */
  function MakeOperator(n: Node): (r: Option<Functor>)
    ensures r.None? <==> forall j :: 0 <= j < |Overloads(n.kind)| ==> !Matches(n, Overloads(n.kind)[j].schema)
    ensures r.Some? ==>
      exists i: nat :: i < |Overloads(n.kind)| && FirstMatching(SchemasOf(Overloads(n.kind)), n, i) &&
        r.value == Overloads(n.kind)[i]
  {
    var fs := Overloads(n.kind);
    match FirstMatch(SchemasOf(fs), n)
    case None => None
    case Some(i) => Some(fs[i])
  }

  // ---------------------------------------------------------------------------
  // The closure body

  /** One execution of a closure on its processed node. The inputs are read
      first, each at its position with its parameter's accessor. If output 0
      is None, the functional kernel's freshly allocated result is stored
      there. Otherwise the tensor already in output 0 is resized to zero and
      the `_out` kernel writes the result into that same tensor, reusing its
      storage when it is large enough. A failing read or kernel is reported
      as `Fail`; a kernel that fails after the resize leaves the reused
      tensor empty. */
  method RunFunctor(f: Functor, p: ProcessedNode) returns (outcome: Outcome)
    requires p.Valid()
    modifies p.outputs, p.OutputFrame()
    ensures p.Valid()
    // Only output 0 is written, and the inputs are left as they were.
    ensures forall j :: 1 <= j < p.outputs.Length ==> p.outputs[j] == old(p.outputs[j])
    ensures forall i :: 0 <= i < |p.inputs| && p.inputs[i].TensorSlot? ==>
      p.inputs[i].t.Contents() == old(p.inputs[i].t.Contents())
    ensures unchanged(old(Footprint(p.inputs)))
    ensures Eval(f, p.inputs) == old(Eval(f, p.inputs))
    // The execution succeeds when the inputs bind, the kernel succeeds and
    // output 0 is None or a tensor; output 0 then holds exactly the result.
    ensures outcome.Pass? <==>
      old(Eval(f, p.inputs)).Success? && (old(p.outputs[0]).NoneSlot? || old(p.outputs[0]).TensorSlot?)
    ensures outcome.Pass? ==>
      p.outputs[0].TensorSlot? && p.outputs[0].t.Contents() == old(Eval(f, p.inputs)).value
    ensures outcome.Fail? && old(Bind(f.schema.params, p.inputs)).Failure? ==>
      outcome.error == old(Bind(f.schema.params, p.inputs)).error
    ensures outcome.Fail? && (old(p.outputs[0]).NoneSlot? || old(p.outputs[0]).TensorSlot?) ==>
      outcome.error == old(Eval(f, p.inputs)).error
    // First execution: a new tensor is allocated, or the slot stays None.
    ensures old(p.outputs[0]).NoneSlot? && outcome.Pass? ==> fresh(p.outputs[0].t) && fresh(p.outputs[0].t.storage)
    ensures old(p.outputs[0]).NoneSlot? && outcome.Fail? ==> p.outputs[0].NoneSlot?
    // Later executions: the slot keeps the same tensor object, whose storage
    // is kept when the result fits in it.
    ensures !old(p.outputs[0]).NoneSlot? ==> p.outputs[0] == old(p.outputs[0])
    ensures (old(p.outputs[0]).TensorSlot? && outcome.Pass? &&
             |p.outputs[0].t.Contents()| <= old(p.outputs[0].t.storage.Length)) ==>
      p.outputs[0].t.storage == old(p.outputs[0].t.storage)
    ensures old(p.outputs[0]).TensorSlot? ==>
      p.outputs[0].t.storage == old(p.outputs[0].t.storage) || fresh(p.outputs[0].t.storage)
    ensures old(p.outputs[0]).TensorSlot? && outcome.Fail? ==>
      p.outputs[0].t.Contents() ==
        if old(Bind(f.schema.params, p.inputs)).Success? then [] else old(p.outputs[0].t.Contents())
  {
    var bound := Bind(f.schema.params, p.inputs);
    if bound.Failure? {
      return Fail(bound.error);
    }
    if p.outputs[0].NoneSlot? {
      var result := Compute(f.kernel, bound.value);
      if result.Failure? {
        return Fail(result.error);
      }
      var created := new Tensor.FromValues(result.value);
      p.outputs[0] := TensorSlot(created);
      return Pass;
    }
    if !p.outputs[0].TensorSlot? {
      return Fail("Expected Tensor");
    }
    var out := p.outputs[0].t;
    out.FastResizeToZero();
    var result := Compute(f.kernel, bound.value);
    if result.Failure? {
      return Fail(result.error);
    }
    out.ResizeAndWrite(result.value);
    return Pass;
  }
}

=== FILE: kernel_laws.dfy ===
/** What the kernels promise, stated against independent characterisations:
    each overload against its sibling overloads, each operation against its
    inverse or its dual. */
module KernelLaws {
  import opened Wrappers
  import opened Kernels

  // ---------------------------------------------------------------------------
  // Element-wise operations

  /** neg undoes itself. */
  lemma NegInvolution(a: seq<int>)
    ensures |Neg(a)| == |a| && Neg(Neg(a)) == a
  {
  }

  /** A one-element operand is broadcast: the operation computes what it
      computes on that element repeated to the other operand's size, on
      either side. */
  lemma {:induction false} SingletonBroadcastsAsExpansion(op: BinOp, x: int, b: seq<int>)
    ensures Binary(op, [x], b) == Binary(op, Fill(x, |b|), b)
    ensures Binary(op, b, [x]) == Binary(op, b, Fill(x, |b|))
  {
    var e := Fill(x, |b|);
    assert BroadcastSize(1, |b|) == Some(|b|) && BroadcastSize(|b|, 1) == Some(|b|);
    assert BroadcastSize(|b|, |b|) == Some(|b|);
    forall i | 0 <= i < |b|
      ensures At([x], i) == At(e, i) == x
    {
    }
    assert Binary(op, [x], b).value == Binary(op, e, b).value;
    assert Binary(op, b, [x]).value == Binary(op, b, e).value;
  }

  /** Every operation but lt is symmetric in its operands. */
  lemma ApplyCommutes(op: BinOp, x: int, y: int)
    requires op != LtOp
    ensures Apply(op, x, y) == Apply(op, y, x)
  {
    if op == GcdOp {
      GcdIsGreatestCommonDivisor(x, y, 0);
    } else if op == BitAndOp {
      BitAndCommutes(x, y);
    }
  }

  /** gcd, bitwise_and, maximum, minimum, eq and ne give the same result
      with their operands swapped, and fail exactly when the swapped call
      fails. */
  lemma {:induction false} SymmetricOpsCommute(op: BinOp, a: seq<int>, b: seq<int>)
    requires op != LtOp
    ensures Binary(op, a, b) == Binary(op, b, a)
  {
    match BroadcastSize(|a|, |b|)
    case None =>
      assert BroadcastSize(|b|, |a|).None?;
    case Some(n) =>
      assert BroadcastSize(|b|, |a|) == Some(n);
      var r, s := Binary(op, a, b).value, Binary(op, b, a).value;
      forall i | 0 <= i < n
        ensures r[i] == s[i]
      {
        ApplyCommutes(op, At(a, i), At(b, i));
      }
      assert r == s;
  }

  /** The `Scalar` overload of an operation computes what its `Tensor`
      overload computes on a one-element tensor holding the scalar. */
  lemma {:induction false} ScalarOverloadAgrees(op: BinOp, a: seq<int>, s: int)
    ensures Binary(op, a, [s]) == Success(BinaryScalar(op, a, s))
  {
    var r := Binary(op, a, [s]);
    assert BroadcastSize(|a|, 1) == Some(|a|);
    assert r.Success? && |r.value| == |a|;
    forall i | 0 <= i < |a|
      ensures r.value[i] == BinaryScalar(op, a, s)[i]
    {
      assert At([s], i) == s;
      assert |a| == 1 ==> At(a, i) == a[0] == a[i];
    }
    assert r.value == BinaryScalar(op, a, s);
  }

  /** ne is the negation of eq, element by element, on every input. */
  lemma NeNegatesEq(a: seq<int>, b: seq<int>)
    ensures Binary(NeOp, a, b).Success? == Binary(EqOp, a, b).Success?
    ensures Binary(NeOp, a, b).Success? ==>
      |Binary(NeOp, a, b).value| == |Binary(EqOp, a, b).value| &&
      forall i :: 0 <= i < |Binary(NeOp, a, b).value| ==>
        Binary(NeOp, a, b).value[i] == 1 - Binary(EqOp, a, b).value[i]
  {
  }

  /** At every position exactly one of `a < b`, `b < a` and `a == b` is
      flagged, each flag being 0 or 1: lt is a strict order and eq its
      complement. */
  lemma ComparisonTrichotomy(a: seq<int>, b: seq<int>)
    ensures Binary(LtOp, a, b).Success? <==> Binary(LtOp, b, a).Success?
    ensures Binary(LtOp, a, b).Success? <==> Binary(EqOp, a, b).Success?
    ensures Binary(LtOp, a, b).Success? ==>
      var lt, gt, eq := Binary(LtOp, a, b).value, Binary(LtOp, b, a).value, Binary(EqOp, a, b).value;
      |lt| == |gt| == |eq| &&
      forall i :: 0 <= i < |lt| ==>
        0 <= lt[i] && 0 <= gt[i] && 0 <= eq[i] && lt[i] + gt[i] + eq[i] == 1
  {
  }

  /** maximum and minimum split the operands at every position: one takes
      the larger element and the other the smaller. */
  lemma MaxMinKeepOperands(a: seq<int>, b: seq<int>)
    ensures Binary(MaxOp, a, b).Success? <==> Binary(MinOp, a, b).Success?
    ensures Binary(MaxOp, a, b).Success? ==>
      var hi, lo := Binary(MaxOp, a, b).value, Binary(MinOp, a, b).value;
      |hi| == |lo| &&
      forall i :: 0 <= i < |hi| ==>
        && hi[i] >= lo[i]
        && ((hi[i] == At(a, i) && lo[i] == At(b, i)) || (hi[i] == At(b, i) && lo[i] == At(a, i)))
  {
  }

  // ---------------------------------------------------------------------------
  // gcd

  /** Division of an exact multiple, by the uniqueness of quotient and
      remainder. */
  lemma MulDivExact(k: int, g: nat)
    requires g > 0
    ensures (k * g) / g == k && (k * g) % g == 0
  {
    var x := k * g;
    var t := k - x / g;
    assert t * g == x % g by {
      assert x == (x / g) * g + x % g;
      assert t * g == k * g - (x / g) * g;
    }
  }

  /** If `g` divides `b` and `a % b`, it divides `a`. */
  lemma DividesFromRemainder(a: nat, b: nat, g: nat)
    requires b > 0 && g > 0
    requires b % g == 0 && (a % b) % g == 0
    ensures a % g == 0
  {
    var q, p, s := a / b, b / g, (a % b) / g;
    assert b == p * g;
    assert a % b == s * g;
    calc {
      a;
      q * b + a % b;
      q * (p * g) + s * g;
      { assert q * (p * g) == (q * p) * g; }
      (q * p + s) * g;
    }
    MulDivExact(q * p + s, g);
  }

  /** If `d` divides `a` and `b`, it divides `a % b`. */
  lemma RemainderKeepsDivisor(a: nat, b: nat, d: nat)
    requires b > 0 && d > 0
    requires a % d == 0 && b % d == 0
    ensures (a % b) % d == 0
  {
    var q, x, y := a / b, a / d, b / d;
    assert a == x * d && b == y * d;
    calc {
      a % b;
      a - q * b;
      x * d - q * (y * d);
      { assert q * (y * d) == (q * y) * d; }
      (x - q * y) * d;
    }
    assert x - q * y >= 0 by {
      assert (x - q * y) * d == a % b >= 0;
    }
    MulDivExact(x - q * y, d);
  }

  /** Euclid's result divides both operands, and is zero only for (0, 0). */
  lemma {:induction false} EuclidDivides(a: nat, b: nat)
    ensures EuclidGcd(a, b) == 0 <==> a == 0 && b == 0
    ensures EuclidGcd(a, b) > 0 ==> a % EuclidGcd(a, b) == 0 && b % EuclidGcd(a, b) == 0
    decreases b
  {
    if b != 0 {
      EuclidDivides(b, a % b);
      DividesFromRemainder(a, b, EuclidGcd(a, b));
    }
  }

  /** Every common divisor divides Euclid's result: it is the greatest. */
  lemma {:induction false} EuclidGreatest(a: nat, b: nat, d: nat)
    requires d > 0 && a % d == 0 && b % d == 0
    ensures EuclidGcd(a, b) % d == 0
    decreases b
  {
    if b != 0 {
      RemainderKeepsDivisor(a, b, d);
      EuclidGreatest(b, a % b, d);
    }
  }

  /** gcd is the greatest common divisor of the magnitudes, whatever the
      order of the operands. */
  lemma {:induction false} GcdIsGreatestCommonDivisor(x: int, y: int, d: nat)
    ensures Gcd(x, y) == Gcd(y, x)
    ensures Gcd(x, y) == 0 <==> x == 0 && y == 0
    ensures Gcd(x, y) > 0 ==> Abs(x) % Gcd(x, y) == 0 && Abs(y) % Gcd(x, y) == 0
    ensures d > 0 && Abs(x) % d == 0 && Abs(y) % d == 0 ==> Gcd(x, y) % d == 0
  {
    EuclidDivides(Abs(x), Abs(y));
    EuclidDivides(Abs(y), Abs(x));
    var g, h := Gcd(x, y), Gcd(y, x);
    if g > 0 {
      EuclidGreatest(Abs(y), Abs(x), g);
      EuclidGreatest(Abs(x), Abs(y), h);
      DivisorsAgree(g, h);
    }
    if d > 0 && Abs(x) % d == 0 && Abs(y) % d == 0 {
      EuclidGreatest(Abs(x), Abs(y), d);
    }
  }

  /** Two positive numbers that divide each other are equal. */
  lemma DivisorsAgree(g: nat, h: nat)
    requires g > 0 && h > 0 && g % h == 0 && h % g == 0
    ensures g == h
  {
  }

  // ---------------------------------------------------------------------------
  // bitwise_and

  lemma {:induction false} BitAndIdempotent(x: int)
    ensures BitAnd(x, x) == x
    decreases Abs(x)
  {
    if x != 0 && x != -1 {
      BitAndIdempotent(x / 2);
    }
  }

  lemma {:induction false} BitAndCommutes(x: int, y: int)
    ensures BitAnd(x, y) == BitAnd(y, x)
    decreases Abs(x) + Abs(y)
  {
    if x != 0 && y != 0 && x != -1 && y != -1 {
      BitAndCommutes(x / 2, y / 2);
    }
  }

  /** With a non-negative operand the result lies between 0 and that
      operand: and-ing only clears bits. */
  lemma {:induction false} BitAndBounded(x: int, y: int)
    requires 0 <= x
    ensures 0 <= BitAnd(x, y) <= x
    ensures 0 <= y ==> BitAnd(x, y) <= y
  {
    BitAndBelowLeft(x, y);
    if 0 <= y {
      BitAndBelowLeft(y, x);
      BitAndCommutes(x, y);
    }
  }

  lemma {:induction false} BitAndBelowLeft(x: int, y: int)
    requires 0 <= x
    ensures 0 <= BitAnd(x, y) <= x
    decreases Abs(x) + Abs(y)
  {
    if x != 0 && y != 0 && y != -1 {
      BitAndBelowLeft(x / 2, y / 2);
      var low := (x % 2) * (y % 2);
      assert 0 <= low <= x % 2 by {
        if y % 2 == 0 { assert low == 0; } else { assert low == x % 2; }
      }
      assert x == 2 * (x / 2) + x % 2;
    }
  }

  // ---------------------------------------------------------------------------
  // round

  /** The rounded value is a multiple of `m`, at most half a step away from
      `x`, and on a tie it is the even multiple. */
  lemma RoundToMultipleIsNearest(x: int, m: nat)
    requires m > 0
    ensures RoundToMultiple(x, m) % m == 0
    ensures 2 * Abs(RoundToMultiple(x, m) - x) <= m
    ensures 2 * Abs(RoundToMultiple(x, m) - x) == m ==> (RoundToMultiple(x, m) / m) % 2 == 0
  {
    var q, rem := x / m, x % m;
    assert x == q * m + rem;
    var r := RoundToMultiple(x, m);
    MulDivExact(q, m);
    MulDivExact(q + 1, m);
    if r == q * m {
      assert r - x == -rem;
    } else {
      assert r == (q + 1) * m;
      assert (q + 1) * m == q * m + m;
      assert r - x == m - rem;
    }
  }

  /** round.decimals keeps the length, leaves integers alone when decimals
      is non-negative, and otherwise rounds every element to a multiple of
      10^(-decimals). */
  lemma RoundDecimalsRounds(a: seq<int>, decimals: int)
    ensures |RoundDecimals(a, decimals)| == |a|
    ensures decimals >= 0 ==> RoundDecimals(a, decimals) == a
    ensures decimals < 0 ==> forall i :: 0 <= i < |a| ==>
      && RoundDecimals(a, decimals)[i] % Pow10(-decimals) == 0
      && 2 * Abs(RoundDecimals(a, decimals)[i] - a[i]) <= Pow10(-decimals)
  {
    if decimals < 0 {
      forall i | 0 <= i < |a|
        ensures RoundDecimals(a, decimals)[i] % Pow10(-decimals) == 0
        ensures 2 * Abs(RoundDecimals(a, decimals)[i] - a[i]) <= Pow10(-decimals)
      {
        RoundToMultipleIsNearest(a[i], Pow10(-decimals));
      }
    }
  }

  // ---------------------------------------------------------------------------
  // isin

  /** isin depends only on which values the test elements hold, not on
      their order or repetitions. */
  lemma IsinDependsOnlyOnTestSet(elements: seq<int>, tests1: seq<int>, tests2: seq<int>, invert: bool)
    requires forall x: int :: x in tests1 <==> x in tests2
    ensures IsinTensorTensor(elements, tests1, invert) == IsinTensorTensor(elements, tests2, invert)
  {
    forall i | 0 <= i < |elements|
      ensures IsinTensorTensor(elements, tests1, invert)[i] == IsinTensorTensor(elements, tests2, invert)[i]
    {
      var v := elements[i];
      assert v in tests1 <==> v in tests2;
    }
  }

  /** isin.Tensor_Scalar is isin.Tensor_Tensor with a one-element test set. */
  lemma IsinTensorScalarAgrees(elements: seq<int>, test: int, invert: bool)
    ensures IsinTensorScalar(elements, test, invert) == IsinTensorTensor(elements, [test], invert)
  {
  }

  /** isin.Scalar_Tensor is isin.Tensor_Tensor on a one-element tensor. */
  lemma IsinScalarTensorAgrees(element: int, tests: seq<int>, invert: bool)
    ensures IsinScalarTensor(element, tests, invert) == IsinTensorTensor([element], tests, invert)
  {
  }

  // ---------------------------------------------------------------------------
  // scatter

  /** A position no update names keeps its value from `self`. */
  lemma {:induction false} ScatterKeepsUntouched(self: seq<int>, index: seq<int>, values: seq<int>, red: Reduction, n: nat, j: nat)
    requires n <= |index| <= |values|
    requires IndicesInRange(index, |self|)
    requires j < |self|
    requires forall k :: 0 <= k < n ==> index[k] != j
    ensures ScatterPrefix(self, index, values, red, n)[j] == self[j]
  {
    if n > 0 {
      ScatterKeepsUntouched(self, index, values, red, n - 1, j);
    }
  }

  /** Without a reduction, a position holds the value of the last update that
      names it. */
  lemma {:induction false} ScatterLastWriteWins(self: seq<int>, index: seq<int>, values: seq<int>, n: nat, k: nat)
    requires n <= |index| <= |values|
    requires IndicesInRange(index, |self|)
    requires k < n
    requires forall k' :: k < k' < n ==> index[k'] != index[k]
    ensures ScatterPrefix(self, index, values, Replace, n)[index[k]] == values[k]
  {
    if n - 1 != k {
      ScatterLastWriteWins(self, index, values, n - 1, k);
    }
  }

  /** scatter fails exactly on a bad dimension, an index longer than the
      source, an unknown reduction or an index out of range, and reports the
      first of these checks that fails. */
  lemma ScatterFailsExactly(self: seq<int>, dim: int, index: seq<int>, values: seq<int>, reduce: Option<string>)
    ensures Scatter(self, dim, index, values, reduce).Success? <==>
      -1 <= dim <= 0 && |index| <= |values| &&
      (reduce.None? || reduce.value == "add" || reduce.value == "multiply") &&
      IndicesInRange(index, |self|)
    ensures Scatter(self, dim, index, values, reduce).Success? ==>
      |Scatter(self, dim, index, values, reduce).value| == |self|
    ensures !(-1 <= dim <= 0) ==>
      Scatter(self, dim, index, values, reduce) == Failure(DimOutOfRange)
    ensures -1 <= dim <= 0 && |index| > |values| ==>
      Scatter(self, dim, index, values, reduce) == Failure(IndexLargerThanSrc)
    ensures (-1 <= dim <= 0 && |index| <= |values| &&
      reduce.Some? && reduce.value != "add" && reduce.value != "multiply") ==>
      Scatter(self, dim, index, values, reduce) == Failure(BadReduction)
    ensures (-1 <= dim <= 0 && |index| <= |values| &&
      (reduce.None? || reduce.value == "add" || reduce.value == "multiply") &&
      !IndicesInRange(index, |self|)) ==>
      Scatter(self, dim, index, values, reduce) == Failure(IndexOutOfBounds)
  {
  }
}

=== FILE: kernels.dfy ===
/** The numerical kernels behind the representative operators (`at::cpu::neg`,
    `gcd`, `bitwise_and`, `eq`/`ne`/`lt`, `maximum`, `minimum`, `round`,
    `isin`, `scatter`), on one-dimensional tensors of integer-valued elements.
    A comparison produces 1 for true and 0 for false. Every kernel is a pure
    function of its arguments; its functional form and its `_out` form compute
    the same values. */
module Kernels {
  import opened Wrappers

  function Abs(x: int): nat
  {
    if x < 0 then -x else x
  }

  // ---------------------------------------------------------------------------
  // Broadcasting of two one-dimensional operands

  /** The size of the result of an element-wise operation on operands of sizes
      `m` and `n`: equal sizes, or one operand of size 1 that is repeated. */
  function BroadcastSize(m: nat, n: nat): (r: Option<nat>)
    ensures r.Some? <==> (m == n || m == 1 || n == 1)
    ensures r.Some? ==> (m == r.value || m == 1) && (n == r.value || n == 1)
    ensures r.Some? ==> r.value == (if m == 1 then n else m)
  {
    if m == n then Some(m)
    else if m == 1 then Some(n)
    else if n == 1 then Some(m)
    else None
  }

  /** Element `i` of `a` as seen by a broadcast operation. */
  function At(a: seq<int>, i: nat): int
    requires i < |a| || |a| == 1
  {
    if |a| == 1 then a[0] else a[i]
  }

  const SizeMismatch := "The size of tensor a must match the size of tensor b at non-singleton dimension 0"

  // ---------------------------------------------------------------------------
  // Element operations

  /** Euclid's algorithm on non-negative integers. */
  function EuclidGcd(a: nat, b: nat): nat
    decreases b
  {
    if b == 0 then a else EuclidGcd(b, a % b)
  }

  /** The kernel's gcd: always non-negative, gcd(0, 0) = 0. */
  function Gcd(x: int, y: int): nat
  {
    EuclidGcd(Abs(x), Abs(y))
  }

  /** Bitwise and on two's-complement integers of unbounded width. */
  function BitAnd(x: int, y: int): int
    decreases Abs(x) + Abs(y)
  {
    if x == 0 || y == 0 then 0
    else if x == -1 then y
    else if y == -1 then x
    else 2 * BitAnd(x / 2, y / 2) + (x % 2) * (y % 2)
  }

  datatype BinOp = GcdOp | BitAndOp | MaxOp | MinOp | EqOp | NeOp | LtOp

  function Apply(op: BinOp, x: int, y: int): int
  {
    match op
    case GcdOp => Gcd(x, y)
    case BitAndOp => BitAnd(x, y)
    case MaxOp => if x >= y then x else y
    case MinOp => if x <= y then x else y
    case EqOp => if x == y then 1 else 0
    case NeOp => if x != y then 1 else 0
    case LtOp => if x < y then 1 else 0
  }

  // ---------------------------------------------------------------------------
  // Tensor kernels

  function Neg(a: seq<int>): seq<int>
  {
    seq(|a|, i requires 0 <= i < |a| => -a[i])
  }

  /** The `Tensor, Tensor` overload of an element-wise operation. */
  function Binary(op: BinOp, a: seq<int>, b: seq<int>): Result<seq<int>>
  {
    match BroadcastSize(|a|, |b|)
    case None => Failure(SizeMismatch)
    case Some(n) => Success(seq(n, i requires 0 <= i < n => Apply(op, At(a, i), At(b, i))))
  }

  /** The `Tensor, Scalar` overload of an element-wise operation. */
  function BinaryScalar(op: BinOp, a: seq<int>, s: int): seq<int>
  {
    seq(|a|, i requires 0 <= i < |a| => Apply(op, a[i], s))
  }

  function Pow10(k: nat): (r: nat)
    ensures r >= 1
  {
    if k == 0 then 1 else 10 * Pow10(k - 1)
  }

  /** Rounds `x` to a multiple of `m`, ties to the even multiple (the
      `nearbyint` rounding of the floating-point kernel). */
  function RoundToMultiple(x: int, m: nat): int
    requires m > 0
  {
    var q := x / m;
    var rem := x % m;
    if 2 * rem < m then q * m
    else if 2 * rem > m then (q + 1) * m
    else if q % 2 == 0 then q * m
    else (q + 1) * m
  }

  /** `round.decimals`: with `decimals >= 0` an integer-valued element is
      already rounded; with `decimals < 0` it is rounded to a multiple of
      10^(-decimals). Plain `round` is the case `decimals == 0`. */
  function RoundDecimals(a: seq<int>, decimals: int): seq<int>
  {
    if decimals >= 0 then a
    else seq(|a|, i requires 0 <= i < |a| => RoundToMultiple(a[i], Pow10(-decimals)))
  }

  function Bit(b: bool): int
  {
    if b then 1 else 0
  }

  /** `isin.Tensor_Tensor`: whether each element occurs among the test
      elements, flipped by `invert`. `assume_unique` is not consulted: this
      is true membership, what ATen computes when the caller's uniqueness
      assumption holds. */
  function IsinTensorTensor(elements: seq<int>, tests: seq<int>, invert: bool): seq<int>
  {
    seq(|elements|, i requires 0 <= i < |elements| => Bit((elements[i] in tests) != invert))
  }

  function IsinTensorScalar(elements: seq<int>, test: int, invert: bool): seq<int>
  {
    seq(|elements|, i requires 0 <= i < |elements| => Bit((elements[i] == test) != invert))
  }

  /** `isin.Scalar_Tensor`: a zero-dimensional result, one element. */
  function IsinScalarTensor(element: int, tests: seq<int>, invert: bool): seq<int>
  {
    [Bit((element in tests) != invert)]
  }

  // ---------------------------------------------------------------------------
  // scatter

  const DimOutOfRange := "Dimension out of range (expected to be in range of [-1, 0])"
  const IndexLargerThanSrc := "Expected index to be smaller size than src"
  const BadReduction := "reduce argument must be either add or multiply."
  const IndexOutOfBounds := "index is out of bounds for dimension 0"

  datatype Reduction = Replace | AddReduce | MultiplyReduce

  /** The `reduce` argument of `scatter`: absent, "add" or "multiply". */
  function ParseReduction(reduce: Option<string>): Result<Reduction>
  {
    match reduce
    case None => Success(Replace)
    case Some(s) =>
      if s == "add" then Success(AddReduce)
      else if s == "multiply" then Success(MultiplyReduce)
      else Failure(BadReduction)
  }

  function Combine(red: Reduction, current: int, v: int): int
  {
    match red
    case Replace => v
    case AddReduce => current + v
    case MultiplyReduce => current * v
  }

  predicate IndicesInRange(index: seq<int>, size: nat)
  {
    forall k :: 0 <= k < |index| ==> 0 <= index[k] < size
  }

  /** The first `n` updates of a scatter, applied in index order to a copy of
      `self`. */
  function ScatterPrefix(self: seq<int>, index: seq<int>, values: seq<int>, red: Reduction, n: nat): (r: seq<int>)
    requires n <= |index| <= |values|
    requires IndicesInRange(index, |self|)
    ensures |r| == |self|
  {
    if n == 0 then self
    else
      var acc := ScatterPrefix(self, index, values, red, n - 1);
      var j := index[n - 1];
      acc[j := Combine(red, acc[j], values[n - 1])]
  }

  /** `scatter` along dimension 0 (or -1) of a one-dimensional `self`; the
      checks come in the kernel's order: dimension, shapes, reduction, then
      the index values. */
  function Scatter(self: seq<int>, dim: int, index: seq<int>, values: seq<int>, reduce: Option<string>): Result<seq<int>>
  {
    if !(-1 <= dim <= 0) then Failure(DimOutOfRange)
    else if |index| > |values| then Failure(IndexLargerThanSrc)
    else match ParseReduction(reduce)
      case Failure(e) => Failure(e)
      case Success(red) =>
        if !IndicesInRange(index, |self|) then Failure(IndexOutOfBounds)
        else Success(ScatterPrefix(self, index, values, red, |index|))
  }

  /** The values that `scatter.value` writes: `v` once per index. */
  function Fill(v: int, n: nat): (r: seq<int>)
  {
    seq(n, _ => v)
  }
}

=== FILE: nested_tensor.dfy ===
/** The nested-tensor capability check: a tensor's implementation is either
    an ordinary one or a `NestedTensorImpl` (a flat buffer plus a tensor of
    per-component sizes). Nested-only accessors are reached through a guarded
    downcast, and the whole-tensor shape queries fail on a nested value
    instead of answering with a default. This is the build with tensor-impl
    extensibility enabled, where those queries are overridden. */
module NestedTensors {
  import opened Wrappers

  datatype DispatchKey = CPU | CUDA | AutogradCPU | AutogradCUDA | Sparse | NestedTensor

  datatype MemoryFormat = Contiguous | ChannelsLast | ChannelsLast3d | Preserve

  /** The key sets an ordinary implementation can carry: only a
      `NestedTensorImpl` has the `NestedTensor` key. */
  type PlainKeys = s: set<DispatchKey> | NestedTensor !in s witness {}

  /** The implementation behind a tensor handle. An ordinary implementation
      answers the shape queries from its metadata; a nested one holds the
      buffer and the size tensor it was constructed with, and nothing else
      (both are fixed at construction). */
  datatype TensorImpl =
    | Plain(keys: PlainKeys, sizes: seq<int>, strides: seq<int>, contiguousIn: set<MemoryFormat>)
    | Nested(otherKeys: PlainKeys, buffer: TensorImpl, nestedSizeTensor: TensorImpl)

  type NestedTensorImpl = t: TensorImpl | t.Nested?
    witness Nested({}, Plain({}, [], [], {}), Plain({}, [], [], {}))

  const NotNested := "get_nested_tensor_impl requires a NestedTensor."
  const DimDisabled := "dim is disabled. These methods are not virtual in fbcode."
  const NumelDisabled := "numel is disabled. These methods are not virtual in fbcode."
  const IsContiguousDisabled := "is_contiguous is disabled. These methods are not virtual in fbcode."
  const SizesUnsupported :=
    "Internal error: NestedTensorImpl doesn't support sizes. Please file an issue on https://github.com/pytorch/nestedtensor"
  const StridesUnsupported :=
    "Internal error: NestedTensorImpl doesn't support strides. Please file an issue on https://github.com/pytorch/nestedtensor"

  /** `key_set()`: a nested implementation always carries `NestedTensor`, an
      ordinary one never does. */
  function KeySet(t: TensorImpl): (r: set<DispatchKey>)
    ensures NestedTensor in r <==> t.Nested?
    ensures t.Nested? ==> r == t.otherKeys + {NestedTensor}
  {
    match t
    case Plain(keys, _, _, _) => keys
    case Nested(otherKeys, _, _) => otherKeys + {NestedTensor}
  }

  /** The `NestedTensorImpl` constructor: a nested value over `buffer` and
      `nestedSizeTensor`. Which further keys it carries is decided outside
      this header and is a parameter here. */
  function MakeNested(buffer: TensorImpl, nestedSizeTensor: TensorImpl, otherKeys: PlainKeys): (r: NestedTensorImpl)
    ensures NestedTensor in KeySet(r) && otherKeys <= KeySet(r)
  {
    Nested(otherKeys, buffer, nestedSizeTensor)
  }

  /** `is_nested_tensor_impl`: the key-set test, which holds exactly for the
      nested implementation. */
  function IsNestedTensorImpl(t: TensorImpl): (r: bool)
    ensures r <==> t.Nested?
  {
    NestedTensor in KeySet(t)
  }

  /** `get_nested_tensor_impl`: the same implementation, viewed as nested,
      or the check's error when it is not nested. */
  function GetNestedTensorImpl(t: TensorImpl): (r: Result<NestedTensorImpl>)
    ensures r.Success? <==> IsNestedTensorImpl(t)
    ensures r.Success? ==> r.value == t
    ensures r.Failure? ==> r.error == NotNested
  {
    if IsNestedTensorImpl(t) then Success(t) else Failure(NotNested)
  }

  /** `get_buffer(tensor)`: the stored buffer, behind the downcast's check. */
  function GetBuffer(t: TensorImpl): (r: Result<TensorImpl>)
    ensures r.Success? <==> IsNestedTensorImpl(t)
    ensures r.Success? ==> r.value == t.buffer
    ensures r.Failure? ==> r.error == GetNestedTensorImpl(t).error
  {
    match GetNestedTensorImpl(t)
    case Failure(e) => Failure(e)
    case Success(n) => Success(n.buffer)
  }

  /** `get_nested_size_tensor(tensor)`: the stored size tensor, behind the
      downcast's check. */
  function GetNestedSizeTensor(t: TensorImpl): (r: Result<TensorImpl>)
    ensures r.Success? <==> IsNestedTensorImpl(t)
    ensures r.Success? ==> r.value == t.nestedSizeTensor
    ensures r.Failure? ==> r.error == GetNestedTensorImpl(t).error
  {
    match GetNestedTensorImpl(t)
    case Failure(e) => Failure(e)
    case Success(n) => Success(n.nestedSizeTensor)
  }

  function Product(s: seq<int>): int
  {
    if s == [] then 1 else s[0] * Product(s[1..])
  }

  /** `dim()`: the number of sizes of an ordinary implementation; disabled
      on a nested one. */
  function Dim(t: TensorImpl): (r: Result<nat>)
    ensures r.Success? <==> !IsNestedTensorImpl(t)
    ensures r.Success? ==> r.value == |t.sizes|
    ensures r.Failure? ==> r.error == DimDisabled
  {
    match t
    case Plain(_, sizes, _, _) => Success(|sizes|)
    case Nested(_, _, _) => Failure(DimDisabled)
  }

  /** `numel()`: the product of the sizes of an ordinary implementation;
      disabled on a nested one. */
  function Numel(t: TensorImpl): (r: Result<int>)
    ensures r.Success? <==> !IsNestedTensorImpl(t)
    ensures r.Success? ==> r.value == Product(t.sizes)
    ensures r.Failure? ==> r.error == NumelDisabled
  {
    match t
    case Plain(_, sizes, _, _) => Success(Product(sizes))
    case Nested(_, _, _) => Failure(NumelDisabled)
  }

  /** `is_contiguous(memory_format)`: whether an ordinary implementation is
      contiguous in that format; disabled on a nested one. */
  function IsContiguous(t: TensorImpl, format: MemoryFormat): (r: Result<bool>)
    ensures r.Success? <==> !IsNestedTensorImpl(t)
    ensures r.Success? ==> (r.value <==> format in t.contiguousIn)
    ensures r.Failure? ==> r.error == IsContiguousDisabled
  {
    match t
    case Plain(_, _, _, contiguousIn) => Success(format in contiguousIn)
    case Nested(_, _, _) => Failure(IsContiguousDisabled)
  }

  /** `sizes()`: an ordinary implementation's sizes; an internal error on a
      nested one, never an empty list. */
  function Sizes(t: TensorImpl): (r: Result<seq<int>>)
    ensures r.Success? <==> !IsNestedTensorImpl(t)
    ensures r.Success? ==> r.value == t.sizes
    ensures r.Failure? ==> r.error == SizesUnsupported
  {
    match t
    case Plain(_, sizes, _, _) => Success(sizes)
    case Nested(_, _, _) => Failure(SizesUnsupported)
  }

  /** `strides()`: an ordinary implementation's strides; an internal error
      on a nested one, never an empty list. */
  function Strides(t: TensorImpl): (r: Result<seq<int>>)
    ensures r.Success? <==> !IsNestedTensorImpl(t)
    ensures r.Success? ==> r.value == t.strides
    ensures r.Failure? ==> r.error == StridesUnsupported
  {
    match t
    case Plain(_, _, strides, _) => Success(strides)
    case Nested(_, _, _) => Failure(StridesUnsupported)
  }

  // ---------------------------------------------------------------------------
  // Properties

  /** The accessors give back exactly what the nested value was constructed
      with, however often they are called. */
  lemma AccessorsReturnConstructionArguments(buffer: TensorImpl, nestedSizeTensor: TensorImpl, keys: PlainKeys)
    ensures var t := MakeNested(buffer, nestedSizeTensor, keys);
      && IsNestedTensorImpl(t)
      && GetNestedTensorImpl(t) == Success(t)
      && GetBuffer(t) == Success(buffer)
      && GetNestedSizeTensor(t) == Success(nestedSizeTensor)
  {
  }

  /** Every nested value is one the constructor can build: it is determined
      by its buffer, its size tensor and its other keys. */
  lemma NestedValuesAreConstructed(t: TensorImpl)
    requires IsNestedTensorImpl(t)
    ensures t == MakeNested(GetBuffer(t).value, GetNestedSizeTensor(t).value, KeySet(t) - {NestedTensor})
  {
  }

  /** The two capabilities partition all tensors: the nested accessors
      succeed exactly where every shape query fails, and a caller that
      branches on `is_nested_tensor_impl` never reaches a failing call. */
  lemma CapabilitiesPartition(t: TensorImpl, format: MemoryFormat)
    ensures IsNestedTensorImpl(t) ==>
      && GetBuffer(t).Success? && GetNestedSizeTensor(t).Success?
      && Dim(t).Failure? && Numel(t).Failure? && IsContiguous(t, format).Failure?
      && Sizes(t).Failure? && Strides(t).Failure?
    ensures !IsNestedTensorImpl(t) ==>
      && GetBuffer(t) == Failure(NotNested) && GetNestedSizeTensor(t) == Failure(NotNested)
      && Dim(t).Success? && Numel(t).Success? && IsContiguous(t, format).Success?
      && Sizes(t).Success? && Strides(t).Success?
  {
  }

  /** A sanity check of the model's own `Plain` variant, whose queries stand
      for the base `TensorImpl` ones: as many sizes as `dim()`, and
      `numel()` their product. */
  lemma {:induction false} PlainQueriesAgree(t: TensorImpl)
    requires !IsNestedTensorImpl(t)
    ensures |Sizes(t).value| == Dim(t).value
    ensures Numel(t).value == Product(Sizes(t).value)
    ensures (forall i :: 0 <= i < |t.sizes| ==> t.sizes[i] != 0) <==> Numel(t).value != 0
  {
    ProductZero(t.sizes);
  }

  /** A product is zero exactly when one of its factors is. */
  lemma {:induction false} ProductZero(s: seq<int>)
    ensures Product(s) == 0 <==> exists i :: 0 <= i < |s| && s[i] == 0
  {
    if s != [] {
      ProductZero(s[1..]);
      if Product(s[1..]) == 0 {
        var i :| 0 <= i < |s[1..]| && s[1..][i] == 0;
        assert s[i + 1] == 0;
      }
      if s[0] != 0 && Product(s[1..]) != 0 {
        assert s[0] * Product(s[1..]) != 0;
        forall i | 0 <= i < |s| ensures s[i] != 0 {
          if i > 0 { assert s[i] == s[1..][i - 1]; }
        }
      }
    }
  }
}

=== FILE: processed_node.dfy ===
/** The runtime side of a processed node: the values (`IValue`s) in its
    input and output slots, the typed accessors that read them, and the node
    itself. */
module Runtime {
  import opened Wrappers
  import opened Tensors
  import opened Schemas

  datatype ScalarType = Byte | Int | Long | Float | Double | BoolType

  /** One input or output value of a processed node. */
  datatype Slot =
    | NoneSlot
    | TensorSlot(t: Tensor)
    | ScalarSlot(scalar: int)
    | IntSlot(i: int)
    | BoolSlot(b: bool)
    | StrSlot(str: string)
    | ScalarTypeSlot(st: ScalarType)

  /** A value as a closure binds it: a tensor is bound by its contents. */
  datatype Arg =
    | TensorArg(data: seq<int>)
    | ScalarArg(scalar: int)
    | IntArg(i: int)
    | BoolArg(b: bool)
    | StrArg(str: string)
    | ScalarTypeArg(st: ScalarType)
    | AbsentArg

  /** The tensors held by some slots. */
  function HeldTensors(slots: seq<Slot>): (r: set<Tensor>)
    ensures forall i :: 0 <= i < |slots| && slots[i].TensorSlot? ==> slots[i].t in r
  {
    set i | 0 <= i < |slots| && slots[i].TensorSlot? :: slots[i].t
  }

  /** The tensors held by some slots, with their storage. */
  function Footprint(slots: seq<Slot>): (r: set<object>)
    reads HeldTensors(slots)
    ensures HeldTensors(slots) <= r
    ensures forall i :: 0 <= i < |slots| && slots[i].TensorSlot? ==> slots[i].t in r && slots[i].t.storage in r
  {
    HeldTensors(slots) + set i | 0 <= i < |slots| && slots[i].TensorSlot? :: slots[i].t.storage
  }

  predicate SlotsValid(slots: seq<Slot>)
    reads Footprint(slots)
  {
    forall i :: 0 <= i < |slots| && slots[i].TensorSlot? ==> slots[i].t.Valid()
  }

  /** The kind of bound value that a parameter type admits. */
  predicate Fits(a: Arg, ty: Ty)
    decreases ty
  {
    match ty
    case TensorTy => a.TensorArg?
    case ScalarTy => a.ScalarArg?
    case IntTy => a.IntArg?
    case BoolTy => a.BoolArg?
    case StrTy => a.StrArg?
    case ScalarTypeTy => a.ScalarTypeArg?
    case NoneTy => a.AbsentArg?
    case OptionalTy(e) => a.AbsentArg? || Fits(a, e)
  }

  /** The slot kinds the accessor for a parameter type takes: a Scalar
      parameter takes an int as well, and an optional one takes None. */
  predicate Accepts(ty: Ty, s: Slot)
    decreases ty
  {
    match ty
    case TensorTy => s.TensorSlot?
    case ScalarTy => s.ScalarSlot? || s.IntSlot?
    case IntTy => s.IntSlot?
    case BoolTy => s.BoolSlot?
    case StrTy => s.StrSlot?
    case ScalarTypeTy => s.ScalarTypeSlot?
    case NoneTy => s.NoneSlot?
    case OptionalTy(e) => s.NoneSlot? || Accepts(e, s)
  }

  /** The accessor for a parameter type: `toTensor`, `toScalar` (which also
      takes an int), `toInt`, `toBool`, `toStringView`, `toScalarType`, and
      `toOptional<T>` for an optional type. Each fails on any other slot. */
  function Read(ty: Ty, s: Slot): (r: Result<Arg>)
    requires s.TensorSlot? ==> s.t.Valid()
    reads if s.TensorSlot? then {s.t, s.t.storage} else {}
    ensures r.Success? <==> Accepts(ty, s)
    ensures r.Success? ==> Fits(r.value, ty)
    // The value read is the slot's own: an int is read as an int or, where a
    // Scalar is declared, as that Scalar.
    ensures r.Success? ==>
      match s
      case NoneSlot => r.value == AbsentArg
      case TensorSlot(t) => r.value == TensorArg(t.Contents())
      case ScalarSlot(v) => r.value == ScalarArg(v)
      case IntSlot(v) => r.value == IntArg(v) || r.value == ScalarArg(v)
      case BoolSlot(b) => r.value == BoolArg(b)
      case StrSlot(str) => r.value == StrArg(str)
      case ScalarTypeSlot(st) => r.value == ScalarTypeArg(st)
    decreases ty
  {
    match ty
    case TensorTy => if s.TensorSlot? then Success(TensorArg(s.t.Contents())) else Failure("Expected Tensor")
    case ScalarTy =>
      if s.ScalarSlot? then Success(ScalarArg(s.scalar))
      else if s.IntSlot? then Success(ScalarArg(s.i))
      else Failure("Expected Scalar")
    case IntTy => if s.IntSlot? then Success(IntArg(s.i)) else Failure("Expected Int")
    case BoolTy => if s.BoolSlot? then Success(BoolArg(s.b)) else Failure("Expected Bool")
    case StrTy => if s.StrSlot? then Success(StrArg(s.str)) else Failure("Expected String")
    case ScalarTypeTy => if s.ScalarTypeSlot? then Success(ScalarTypeArg(s.st)) else Failure("Expected ScalarType")
    case NoneTy => if s.NoneSlot? then Success(AbsentArg) else Failure("Expected None")
    case OptionalTy(e) => if s.NoneSlot? then Success(AbsentArg) else Read(e, s)
  }

  /** Output tensor `t` shares neither its identity nor its storage with any
      input tensor. */
  predicate Unaliased(t: Tensor, slots: seq<Slot>)
    reads Footprint(slots), t
  {
    forall i :: 0 <= i < |slots| && slots[i].TensorSlot? ==> slots[i].t != t && slots[i].t.storage != t.storage
  }

  /** One node instance of a static-runtime graph: the values it reads and
      the slots its closure writes. The runtime rebinds the inputs between
      executions; a closure never changes them. */
  class ProcessedNode {
    var inputs: seq<Slot>
    const outputs: array<Slot>

    constructor (inputs: seq<Slot>, numOutputs: nat)
      requires numOutputs >= 1
      requires SlotsValid(inputs)
      ensures Valid()
      ensures this.inputs == inputs && fresh(outputs) && outputs.Length == numOutputs
      ensures forall j :: 0 <= j < numOutputs ==> outputs[j] == NoneSlot
    {
      this.inputs := inputs;
      outputs := new Slot[numOutputs](_ => NoneSlot);
    }

    /** The tensor in output slot 0, with its storage, if there is one. */
    function OutputFrame(): set<object>
      reads outputs, if outputs.Length > 0 && outputs[0].TensorSlot? then {outputs[0].t} else {}
    {
      if outputs.Length > 0 && outputs[0].TensorSlot? then {outputs[0].t, outputs[0].t.storage} else {}
    }

    /** Output 0 exists; every tensor is well formed; and the tensor in
        output 0, if any, is not one of the inputs and shares no storage with
        them. */
    predicate Valid()
      reads this, outputs, Footprint(inputs), OutputFrame()
    {
      && outputs.Length >= 1
      && SlotsValid(inputs)
      && (outputs[0].TensorSlot? ==> outputs[0].t.Valid() && Unaliased(outputs[0].t, inputs))
    }
  }
}

=== FILE: schema.dfy ===
/** Operator schemas as already-parsed records, graph nodes as the operator
    kind and the types of their inputs, and the first-match rule a factory
    uses to pick among an operator's overloads. */
module Schemas {
  import opened Wrappers

  /** The argument types that occur in the schemas (`Scalar` is the number
      type) and the value types a node's inputs can have. */
  datatype Ty =
    | TensorTy
    | ScalarTy
    | IntTy
    | BoolTy
    | StrTy
    | ScalarTypeTy
    | NoneTy
    | OptionalTy(elem: Ty)

  /** `t` is accepted where `u` is declared: the same type, an int where a
      Scalar is declared, and None or an accepted value where an optional
      is declared. */
  predicate Subtype(t: Ty, u: Ty)
    decreases u
  {
    || t == u
    || (t == IntTy && u == ScalarTy)
    || (u.OptionalTy? && (t == NoneTy || Subtype(t, u.elem)))
    || (t.OptionalTy? && u.OptionalTy? && Subtype(t.elem, u.elem))
  }

  /** Only tensors are accepted as tensors, and no tensor is a Scalar: the
      Tensor and Scalar overloads of an operator never compete. */
  lemma TensorAndScalarDisjoint(t: Ty)
    ensures Subtype(t, TensorTy) <==> t == TensorTy
    ensures !(Subtype(t, TensorTy) && Subtype(t, ScalarTy))
  {
  }

  /** An operator symbol (`c10::Symbol`, e.g. `aten::neg`). Symbols are
      interned, so two are equal exactly when their qualified names are; the
      operators with a factory here are named, every other symbol is told
      apart by its interned id. */
  datatype Symbol =
    | Neg | Gcd | BitwiseAnd | Maximum | Minimum | Eq | Ne | Lt | Round | Isin | Scatter
    | OtherSymbol(id: nat)

  datatype Param = Param(name: string, ty: Ty)

  /** `name.overload(params) -> Tensor`; keyword-only markers and defaults are
      not kept, since a node supplies every argument explicitly. */
  datatype Schema = Schema(name: Symbol, overload: string, params: seq<Param>)

  /** A graph node: the operator it calls and the types of its inputs. */
  datatype Node = Node(kind: Symbol, inputs: seq<Ty>)

  /** `n->matches(schema)`: the same operator, as many inputs as parameters,
      and every input accepted by the parameter at its position. The overload
      tag is not compared; it only names the overload. */
  predicate Matches(n: Node, s: Schema)
  {
    && n.kind == s.name
    && |n.inputs| == |s.params|
    && forall i :: 0 <= i < |n.inputs| ==> Subtype(n.inputs[i], s.params[i].ty)
  }

  /** Schema `i` is the first of `schemas` that `n` matches. */
  ghost predicate FirstMatching(schemas: seq<Schema>, n: Node, i: nat)
  {
    && i < |schemas|
    && Matches(n, schemas[i])
    && forall j :: 0 <= j < i ==> !Matches(n, schemas[j])
  }

  /** The chain of `if (n->matches(...)) return ...;` tests: the index of the
      first schema, in declaration order, that the node matches. */
  function FirstMatch(schemas: seq<Schema>, n: Node): (r: Option<nat>)
    ensures r.Some? ==> FirstMatching(schemas, n, r.value)
    ensures r.None? <==> forall j :: 0 <= j < |schemas| ==> !Matches(n, schemas[j])
  {
    if schemas == [] then None
    else if Matches(n, schemas[0]) then Some(0)
    else match FirstMatch(schemas[1..], n)
      case None => None
      case Some(i) => Some(i + 1)
  }

  /** Once a schema matches, the schemas declared after it are never
      consulted: appending more overloads does not change the choice. */
  lemma {:induction false} LaterSchemasNotConsulted(schemas: seq<Schema>, later: seq<Schema>, n: Node)
    requires FirstMatch(schemas, n).Some?
    ensures FirstMatch(schemas + later, n) == FirstMatch(schemas, n)
  {
    if !Matches(n, schemas[0]) {
      assert (schemas + later)[1..] == schemas[1..] + later;
      LaterSchemasNotConsulted(schemas[1..], later, n);
    }
  }

  /** When none of the earlier schemas matches, the choice is made among the
      later ones, counted after the earlier ones. */
  lemma {:induction false} EarlierMismatchesSkipped(schemas: seq<Schema>, later: seq<Schema>, n: Node)
    requires FirstMatch(schemas, n).None?
    ensures FirstMatch(schemas + later, n) ==
      match FirstMatch(later, n)
      case None => None
      case Some(i) => Some(|schemas| + i)
  {
    if schemas == [] {
      assert schemas + later == later;
    } else {
      var rest := schemas[1..];
      assert !Matches(n, schemas[0]) && FirstMatch(rest, n).None?;
      assert (schemas + later)[0] == schemas[0];
      assert (schemas + later)[1..] == rest + later;
      EarlierMismatchesSkipped(rest, later, n);
    }
  }
}

=== FILE: tensor.dfy ===
/** The part of `at::Tensor` that the output-reuse protocol observes: a
    storage buffer that is kept across executions, and a logical element count
    that says how much of that buffer the tensor currently holds. Tensors are
    one-dimensional and hold integer elements. */
module Tensors {

  class Tensor {
    /** The allocated storage; its length is the tensor's capacity. */
    var storage: array<int>
    /** The logical number of elements (the tensor's size). */
    var numel: nat

    predicate Valid()
      reads this
    {
      numel <= storage.Length
    }

    /** What the tensor holds: the first `numel` elements of its storage.
        Elements of the storage past `numel` are stale and never observed. */
    function Contents(): seq<int>
      reads this, storage
      requires Valid()
    {
      storage[..numel]
    }

    /** A freshly allocated tensor holding `values`, with storage sized
        exactly to fit (the result of a functional kernel). */
    constructor FromValues(values: seq<int>)
      ensures Valid() && fresh(storage)
      ensures Contents() == values && storage.Length == |values|
    {
      storage := new int[|values|](i requires 0 <= i < |values| => values[i]);
      numel := |values|;
    }

    /** `fastResizeToZero`: the logical size drops to zero and only metadata
        changes; the same storage is kept and none of its elements is freed,
        copied or cleared. */
    method FastResizeToZero()
      requires Valid()
      modifies this
      ensures Valid() && Contents() == []
      ensures storage == old(storage)
    {
      numel := 0;
    }

    /** What an `_out` kernel does with its `out` argument: resize it to the
        result's size, reallocating the storage only when its capacity is too
        small, then write every element of the result into the storage. */
    method ResizeAndWrite(values: seq<int>)
      requires Valid()
      modifies this, storage
      ensures Valid() && Contents() == values
      ensures |values| <= old(storage.Length) ==> storage == old(storage)
      ensures |values| > old(storage.Length) ==> fresh(storage) && storage.Length == |values|
    {
      var buf := storage;
      if buf.Length < |values| {
        buf := new int[|values|];
        storage := buf;
      }
      numel := |values|;
      var i := 0;
      while i < |values|
        invariant 0 <= i <= |values| == numel <= buf.Length
        invariant storage == buf
        invariant buf[..i] == values[..i]
        modifies buf
      {
        buf[i] := values[i];
        i := i + 1;
      }
    }
  }
}

=== FILE: wrappers.dfy ===
/** Option, Result and Outcome: the null pointer, the exception path and the
    void-or-throw path of the C++ code, written as values. */
module Wrappers {

  datatype Option<+T> = None | Some(value: T)

  /** A computation that returns a value or fails with a message (a thrown
      `c10::Error` in the source). */
  datatype Result<+T> = Success(value: T) | Failure(error: string)

  /** A computation that returns nothing or fails with a message. */
  datatype Outcome = Pass | Fail(error: string)
}
